=== FILE: README.md ===
# A+ content generation: a Dafny model

This project models the core of the A+ content pipeline of a seller-listing
service:

- `combineJsons` merges several single-page Polotno template texts into one
  multi-page template. It checks that every element parses, that every
  element after the first is an object, and that width, height, unit and
  dpi agree under `===`. It merges
  the fonts through a `Set` and concatenates the pages.
- `jsonToBlobs` splits a multi-page template into single-page templates that
  share its header and fonts. Each one is keyed `${baseKey}_${index}` and
  rendered by `jsonToBlob`. That function asks for an `image/jpg` blob, and
  the handlers upload the result as `.png` with content type `image/png`.
- `putObjectToS3` stores each artifact under the key `key + "." + extension`.
- The two A+ handlers:
  - `generate_aplus/index.js` validates the request and looks up the
    listing, then answers at once. In the background it triggers the A+
    workflow, polls it, fetches the template, splits it, uploads every page,
    writes `{ aplus: { page_1..page_4 } }` to the listing, and notifies
    clients when that update succeeded.
  - `generate_aplus/main.js` does the same run synchronously. It answers
    with the four `{ image_url, polotno_json }` pairs, the polling error's
    own status and data, or a 500.

The model is purely functional. JSON values are `Template.Parsed`: not
parsable, `null`, another primitive, or an object whose header fields and
`fonts`/`pages` lists are explicit. A header value that is an object or an
array is `Composite`, and it is never `===` to a value from another parse.

Each handler is a function of four inputs:

- the request body;
- the environment: the bucket URL and the request timestamp;
- the collaborators' replies (`Aplus.Replies`);
- the renderer.

It returns the HTTP response and the ordered trace of calls it makes
(`Aplus.Effect`). Properties about stored objects are stated over that
trace:

- `Aplus.Backs`: some upload in the trace is stored where a URL points.

Modules:

| module | file | what it models |
|---|---|---|
| `Wrappers` | wrappers.dfy | `Option`, `Result` |
| `Decimal` | decimal.dfy | decimal rendering of an index in a template literal |
| `Collections` | collections.dfy | concatenation of lists, and `Set`-based dedup in insertion order |
| `Template` | template.dfy | parsed JSON values and the template's header |
| `Combine` | combine.dfy | `combineJsons` |
| `Split` | split.dfy | `jsonToBlobs`, and the split-then-merge round trip |
| `Storage` | storage.dfy | the object key of `putObjectToS3` |
| `Aplus` | aplus.dfy | what both handlers share: validation, URLs, page map, the workflow run |
| `AplusIndex` | aplus_index.dfy | the fire-and-forget handler |
| `AplusMain` | aplus_main.dfy | the synchronous handler |

## Model

| member | source | states |
|---|---|---|
| Combine.CombineJsons | src/utils/image_utils.js:146-190 | The loop checks each element against the accumulated template, as the source does. It computes the same result as the whole-array definition `CombinedAsWritten`. That result is the first failure in source order, or the merged template. |
| Combine.CombineReportsFirstProblem | src/utils/image_utils.js:147-186 | A non-array or empty array fails with the non-empty-array error. An unparsable first text fails with the first-parse error. Otherwise the error is the one of the earliest later element that has a problem: a parse error, not an object, an inconsistent field, or a missing list. |
| Combine.CombineSucceedsIff | src/utils/image_utils.js:158-187 | The merge succeeds exactly when the first text parses and every later element passes its checks. On success every later element is a template with both `fonts` and `pages` present. |
| Combine.FirstProblemIsEarliest | src/utils/image_utils.js:158-167 | The scan finds no problem exactly when no element from `k` on has one. Otherwise it reports the problem of the earliest element that has one. |
| Combine.InconsistencyNamesFirstMismatch | src/utils/image_utils.js:170-181 | An inconsistency error names the first header field, in the order width, height, unit, dpi, whose values differ under `===`, together with both values. When the whole header agrees, only a missing list can fail. |
| Combine.CombineKeepsFirstHeader | src/utils/image_utils.js:151-189 | A one-element input comes back exactly as it was parsed. With two or more elements the result is a template whose width, height, unit and dpi are those of the first element. |
| Combine.MergedOnSuccess | src/utils/image_utils.js:183-186 | A successful merge of two or more elements equals the closed form: the first header, `Dedup` of all fonts joined, and all pages joined. This unfolds the success branch of `CombinedAsWritten`. Its link to the loop of lines 183-186 is `Combine.CombineJsons`, which proves the loop computes `CombinedAsWritten`. |
| Combine.CombineConcatenatesPages | src/utils/image_utils.js:186 | The merged `pages` are every input's pages joined end to end, input by input. It reads this off the closed form, which `Combine.CombineJsons` proves the loop's repeated `[...combinedJson.pages, ...json.pages]` computes. |
| Combine.CombineMergesFonts | src/utils/image_utils.js:183-184 | With two or more inputs, the merged fonts hold every input's fonts, repeat nothing, invent nothing, and are ordered by first occurrence across the inputs. With one input the fonts are untouched. |
| Combine.Combined | src/utils/image_utils.js:152-167 | This is the corrected merge, which checks element 0 like the others. A success is always a template. A `null` or primitive first element fails with `NotAnObject(0)`. On every other input the result equals the merge as written, including a non-array, an empty array and an unparsable first text. |
| Combine.FirstElementNotObjectChecked | src/utils/image_utils.js:152-156 | As written, `[primitive]` and `[null]` come back as the "combined template", and `[null, t]` fails with a TypeError for every template `t`, lists present or not. The corrected merge rejects the first and last of these with `NotAnObject(0)`. |
| Collections.Dedup | src/utils/image_utils.js:183-184 | The result of `Array.from(new Set(...))` has no repeats, and it holds exactly the values of its argument. |
| Collections.DedupFirstOccurrenceOrder | src/utils/image_utils.js:183-184 | The deduplicated values keep the order of their first occurrences, because a `Set` iterates in insertion order. |
| Collections.DedupAppend | src/utils/image_utils.js:183-184 | Deduplicating the accumulated fonts at every step gives the same list as deduplicating all the fonts once. |
| Collections.FlattenParts | src/utils/image_utils.js:186 | In the joined list, each part sits right after all earlier parts, unchanged. The length of the joined list is the sum of the parts' lengths. |
| Split.PageArtifacts | src/utils/image_utils.js:118-141 | One entry per page, in page order. Entry `i` has key `${baseKey}_${i}`, holds the template with only page `i`, and has the PNG rendered from that template. |
| Split.JsonToBlobs | src/utils/image_utils.js:114-144 | The split succeeds exactly when the argument is an object with a `pages` list. Each entry keeps the header and fonts and holds one page. The number of entries equals the number of pages. |
| Split.PageKeysDistinct | src/utils/image_utils.js:134 | Different page indices give different keys. |
| Split.SplitThenCombine | src/utils/image_utils.js:114-190 | Merging the split pages of a template depends on its page count. With no pages the merge fails with the non-empty-array error. With one page it returns the template itself. With two or more it succeeds exactly when the header holds no object values and `fonts` is present, and then gives back the template with its fonts deduplicated. On these inputs the merge as written and the corrected merge agree. |
| Storage.ObjectKeyInjective | src/utils/aws_services.js:16 | With dot-free extensions, `key + "." + ext` determines both the key and the extension. |
| Decimal.NatToStringInjective | src/utils/image_utils.js:134 | Different indices print as different decimal strings. |
| Aplus.AdvertisedUrlKeys | src/generate_aplus/main.js:18-21 | Advertised PNG and JSON URL `i` are the bucket URL plus the storage key of page `i` with extension `png` or `json`. |
| Aplus.PageMapEntries | src/generate_aplus/index.js:64-70 | The page map's keys are exactly `page_1`..`page_n`. `page_k` pairs PNG URL `k-1` with JSON URL `k-1`. |
| Aplus.FourPages | src/generate_aplus/index.js:64-70 | With the four advertised URL pairs, the page map is exactly `page_1`..`page_4`, holding pairs 0..3. |
| Aplus.UploadsBackAdvertisedUrls | src/generate_aplus/index.js:18-20 | Given uploads keyed by page, advertised URL `i` points at a stored object exactly when there is a page `i`. |
| Aplus.Run | src/generate_aplus/index.js:41-62 | The run always starts by triggering the workflow with `{ user_email, listing_id, seller_id, target_language }`. It then polls with the execution ARN the trigger returned, and fetches the `output` location the poll returned. It reaches the uploads exactly when the trigger, poll and fetch succeed and the template has a `pages` list. It then produces one artifact per page. |
| Aplus.UnadvertisedPagesUploaded | src/generate_aplus/index.js:18-62 | A page from the fifth on is uploaded, as PNG and as JSON, but no advertised URL points at it: the handlers always advertise only four pages. |
| Aplus.RunEffects | src/generate_aplus/main.js:38-63 | A run makes at most three calls that store nothing, then exactly the uploads when it uploads. It never reads, updates or notifies the listing. |
| Aplus.UploadContents | src/generate_aplus/main.js:60-63 | Every upload of a split is a `PutObject`. Under page `i`'s `.json` key it stores page `i`'s single-page template with content type `application/json`. Under its `.png` key it stores that template's rendering with `image/png`. |
| Aplus.RunStoresPages | src/generate_aplus/index.js:55-62 | After a run that delivered template `t`, any object stored where advertised JSON URL `i` points is page `i`'s single-page template as JSON. Any object stored where PNG URL `i` points is its rendering as a PNG. |
| Aplus.RunBacksAdvertisedUrls | src/generate_aplus/main.js:58-63 | After a run, advertised URL `i` points at a stored object exactly when the workflow delivered a template with more than `i` pages. |
| AplusIndex.Handle | src/generate_aplus/index.js:6-107 | A missing or empty field gives 400 with the designed message and no calls. Otherwise the listing is read first, and the status is 404, 200 or 500 exactly when the listing is missing, present, or the lookup throws. A 200 carries the message `set-aplus triggered for seller <seller_id> listing <listing_id>` and is followed by the workflow trigger. A lookup that throws gives a 500 `Internal Server Error` carrying the error's message, after the single read. |
| AplusIndex.TriggeredOnlyWhenAcknowledged | src/generate_aplus/index.js:36-98 | The workflow is triggered exactly when the handler answers 200. |
| AplusIndex.ResponseIgnoresBackground | src/generate_aplus/index.js:39-98 | The response depends only on the request and the listing lookup, never on what the background task meets. |
| AplusIndex.AplusUpdateContents | src/generate_aplus/index.js:64-78 | The listing update writes only `aplus`, holding `page_1`..`page_4` with the advertised PNG and JSON URL pairs. |
| AplusIndex.UpdateOnlyAfterUploads | src/generate_aplus/index.js:55-78 | The listing is updated exactly when it was found and the workflow delivered a splittable template. Every update is the `aplus` update. |
| AplusIndex.NotifyOnlyAfterSuccessfulUpdate | src/generate_aplus/index.js:72-88 | Clients are notified exactly when the update reported success. The notification is the last call, immediately after the update, and it is the only notification. |
| AplusIndex.UpdatedPagesServePages | src/generate_aplus/index.js:59-70 | Whatever the background task stores where the update's page `i + 1` points is page `i`'s content. The JSON URL holds page `i`'s single-page template as `application/json`, and the PNG URL holds its rendering as `image/png`. |
| AplusIndex.AdvertisedUrlsBacked | src/generate_aplus/index.js:18-70 | The update always names four pages, but page `i` points at a stored object exactly when the delivered template had more than `i` pages. |
| AplusMain.Handle | src/generate_aplus/main.js:7-82 | A missing or empty field gives the 400 response with no calls. Not-found gives 404 after a single read. A lookup that throws gives a 500 `Internal Server Error` carrying the error's message, after that single read. The answer is the four pairs exactly when the listing exists and the workflow delivered. Pair `i` is then the bucket URL plus the PNG and JSON storage keys of page `i`. |
| AplusMain.CallsMade | src/generate_aplus/main.js:28-63 | The workflow is triggered exactly when the listing exists. Objects are stored exactly when a template with at least one page was delivered. |
| AplusMain.PollErrorPassedThrough | src/generate_aplus/main.js:42-53 | A poll rejected with an HTTP response answers with that status and data, after exactly the read, the trigger and the poll. No other outcome is a passed-through answer. |
| AplusMain.FailuresAreInternalErrors | src/generate_aplus/main.js:75-81 | Every other failure after the lookup is a 500 `Internal Server Error`. The cause is the thrown message of a failed trigger, or of a failed fetch or `.json()` (a body that does not parse counts as one). It is a TypeError when the poll had no response or the template could not be split. |
| AplusMain.AnsweredPairsServePages | src/generate_aplus/main.js:60-73 | Whatever is stored where answered pair `i` points is page `i`'s content. The `polotno_json` URL holds page `i`'s single-page template as `application/json`, and the `image_url` holds its rendering as `image/png`. |
| AplusMain.AnsweredPairsBacked | src/generate_aplus/main.js:60-73 | Every answer lists four pairs, and pair `i` points at stored objects exactly when the template had more than `i` pages. |

## Left out

- Rendering: `jsonToBlob`'s browser and Polotno instance are a parameter `render` that never throws. A rendering failure is its `""` result (`Split.Blob.EmptyString`). As written, `jsonToBlob` reads `browser`, which src/utils/image_utils.js never declares (only `browserInstance`, line 12). So `browser.isConnected()` at line 66 throws a ReferenceError, which line 79 catches, and every call returns `""`. Every lemma quantifies over all renderers, so it holds for that constant `EmptyString` renderer too. The JPEG-versus-PNG mismatch in format and content type is not modelled: the bytes are opaque.
- Collaborators are modelled only by their replies (`Aplus.Replies`): the key-value store, the workflow gateway, `fetch`, object storage, `updateListing` and `websocketNotifyClients`. The last two are not part of this model beyond their reply, a boolean.
- `putObjectToS3` swallows upload errors and returns `false`. The handlers ignore that result, so the model treats every upload as stored.
- Timing is not modelled: `setImmediate`, the 25-second sleep, and the concurrency of `Promise.all`. Uploads are listed in the order they are started. The `AplusIndex` properties assume the task handed to `setImmediate` (src/generate_aplus/index.js:39) runs to completion after the 200 is returned (line 95). `exports.handler` is a serverless handler, and its runtime may suspend pending work once the handler resolves. `Outcome.effects` lists those calls as if they always happen.
- JSON text is not parsed. Each text is given by what `JSON.parse` makes of it, and `JSON.stringify` of a split page is held in its parsed form. A fetched template body that does not parse makes `.json()` reject with a SyntaxError. The model records that as a failed fetch with the error's message (`Aplus.Fetched` excludes `Unparsable`).
- Request fields that are present but not strings are not modelled, and neither is an unparsable `event.body`, which throws before any response.
- Split.JsonToBlobs: a `pages` value that is present but not an array is modelled like a missing one, as a TypeError (`None`), and `Aplus.WorkflowDelivers` is then false. The source does not throw there. `jsonToBlobs` only reads `pages.length` and `pages[index]` (src/utils/image_utils.js:118-119). For an object, number or boolean `length` is undefined, so the loop runs zero times and returns `[]`. A string gives one entry per character. The source then goes on: src/generate_aplus/index.js:64-88 updates and notifies, and src/generate_aplus/main.js:65-73 answers 200 with four pairs. The model instead stops with `TemplateUnusable`: no update, and a 500.
- A `fonts` or `pages` value that is present but not an array is modelled as missing, so merging it fails with a TypeError (`NotIterable`). As written, a string is spread into its characters and does not throw: `fonts` at src/utils/image_utils.js:183 and `pages` at line 186. Its characters become fonts or pages of the merge. An object, number or boolean does throw there.
- Template keys other than width, height, unit, dpi, fonts and pages are not modelled. Numbers are exact reals, so floating point is not modelled.
- Font entries are modelled as primitive values, which a `Set` merges when they are equal. Font objects from different parses are never `===`, so a `Set` would keep every one of them. The model does not cover that case.
- `Aplus.Backs` joins keys to `S3_BUCKET_URL` (src/generate_aplus/index.js:18, src/generate_aplus/main.js:19). Uploads go to the bucket named by `S3_BUCKET_NAME` (src/utils/aws_services.js:15). The model assumes the URL serves that bucket; the handler properties about stored objects rest on that assumption.
- src/generate_aplus/index.js:1 imports `updateListing` and `websocketNotifyClients` from `utils/aws_services`. The src/utils/aws_services.js in this repository exports only `putObjectToS3` and `dynamoDB` (line 30). If that is the module loaded, `updateListing(...)` at index.js:72 throws a TypeError, caught at line 90, and no update or notification ever happens. The model assumes a module that provides both functions. `AplusIndex.UpdateOnlyAfterUploads` and `AplusIndex.NotifyOnlyAfterSuccessfulUpdate` rest on that assumption.
- Logging, `console` output, and the other handlers and utilities of the repository are out of scope.
- Combine.CombineConcatenatesPages: states the concatenation as a whole. The position of each input's pages within it is given separately by `Collections.FlattenParts`.

## Findings

| source | as written | input that shows it | evidently intended | confidence | as-written member | corrected member |
|---|---|---|---|---|---|---|
| src/utils/image_utils.js:152-167 | Element 0 is parsed but never checked to be an object. Only elements 1 and later get the "must be a valid JSON object" check. | `["5"]` returns `5` as the combined template. `["null", "{\"pages\":[]}"]` throws a TypeError reading `width` of `null`. | Element 0 is rejected like the others, as "Element at index 0 must be a valid JSON object". | medium; not executed | Combine.FirstElementNotObjectChecked | Combine.Combined |

=== FILE: aplus.dfy ===
/** What the two A+ handlers (src/generate_aplus/index.js and
    src/generate_aplus/main.js) share: request validation, the artifact
    naming scheme, the page map and pair list, and the workflow run from
    trigger to upload.  The collaborators (key-value store, workflow
    gateway, template fetch, object storage) appear only through their
    replies. */
module Aplus {
  import opened Wrappers
  import opened Template
  import Decimal
  import Storage
  import Split

  /** The request fields the handlers read; `None` is a missing or `null`
      field. */
  datatype RequestBody = RequestBody(
    sellerId: Option<string>,
    listingId: Option<string>,
    sellerEmail: Option<string>,
    language: Option<string>)

  /** JavaScript truthiness of a string-or-missing field. */
  predicate Truthy(field: Option<string>)
  {
    field.Some? && field.value != ""
  }

  predicate HasRequiredFields(body: RequestBody)
  {
    Truthy(body.sellerId) && Truthy(body.listingId) && Truthy(body.sellerEmail) && Truthy(body.language)
  }

  const MissingFieldsMessage := "Bad request - Missing required fields"
  const NotFoundMessage := "Item not found"
  const InternalErrorMessage := "Internal Server Error"

  /** The bucket URL and the request time (`new Date().toISOString()`), both
      opaque to the model. */
  datatype Env = Env(bucketUrl: string, timestamp: string)

  /** `images/${seller_email}/${listing_id}_${timestamp}_aplus_design_out` */
  function BaseKey(sellerEmail: string, listingId: string, timestamp: string): string
  {
    "images/" + sellerEmail + "/" + listingId + "_" + timestamp + "_aplus_design_out"
  }

  /** The page indices the handlers advertise, whatever the template holds. */
  const Slots: seq<nat> := [0, 1, 2, 3]

  /** `[0, 1, 2, 3].map(i => `${S3_BUCKET_URL}/${baseKey}_${i}`)` */
  function BaseUrls(bucketUrl: string, baseKey: string): seq<string>
  {
    seq(|Slots|, k requires 0 <= k < |Slots| => bucketUrl + "/" + baseKey + "_" + Decimal.NatToString(Slots[k]))
  }

  function WithSuffix(urls: seq<string>, suffix: string): seq<string>
  {
    seq(|urls|, k requires 0 <= k < |urls| => urls[k] + suffix)
  }

  /** The advertised PNG URLs, one per slot. */
  function PngUrls(bucketUrl: string, baseKey: string): (urls: seq<string>)
    ensures |urls| == 4
  {
    WithSuffix(BaseUrls(bucketUrl, baseKey), ".png")
  }

  /** The advertised JSON URLs, one per slot. */
  function JsonUrls(bucketUrl: string, baseKey: string): (urls: seq<string>)
    ensures |urls| == 4
  {
    WithSuffix(BaseUrls(bucketUrl, baseKey), ".json")
  }

  /** Advertised URL `i` is the bucket URL followed by the storage key under
      which page `i`'s PNG, respectively JSON, is uploaded. */
  lemma AdvertisedUrlKeys(bucketUrl: string, baseKey: string)
    ensures forall i :: 0 <= i < 4 ==>
      PngUrls(bucketUrl, baseKey)[i] == bucketUrl + "/" + Storage.ObjectKey(Split.PageKey(baseKey, i), "png")
    ensures forall i :: 0 <= i < 4 ==>
      JsonUrls(bucketUrl, baseKey)[i] == bucketUrl + "/" + Storage.ObjectKey(Split.PageKey(baseKey, i), "json")
  {
  }

  /** `{ image_url, polotno_json }` */
  datatype UrlPair = UrlPair(imageUrl: string, polotnoJson: string)

  /** `page_${k}` */
  function PageName(k: nat): string
  {
    "page_" + Decimal.NatToString(k)
  }

  lemma PageNameInjective(a: nat, b: nat)
    requires PageName(a) == PageName(b)
    ensures a == b
  {
    assert PageName(a)[5..] == Decimal.NatToString(a);
    assert PageName(b)[5..] == Decimal.NatToString(b);
    Decimal.NatToStringInjective(a, b);
  }

  /** `pngUrls.forEach((url, idx) => aplusData[`page_${idx + 1}`] = {...})`:
      one assignment per URL, in order. */
  function PageMap(pngUrls: seq<string>, jsonUrls: seq<string>): map<string, UrlPair>
    requires |pngUrls| <= |jsonUrls|
  {
    if |pngUrls| == 0 then map[]
    else
      var n := |pngUrls| - 1;
      PageMap(pngUrls[..n], jsonUrls)[PageName(n + 1) := UrlPair(pngUrls[n], jsonUrls[n])]
  }

  /** The names `page_1`..`page_n`. */
  ghost function PageNameSet(n: nat): set<string>
  {
    set k: nat | 1 <= k <= n :: PageName(k)
  }

  lemma PageNameSetStep(n: nat)
    requires n >= 1
    ensures PageNameSet(n) == PageNameSet(n - 1) + {PageName(n)}
  {
    forall s | s in PageNameSet(n)
      ensures s in PageNameSet(n - 1) + {PageName(n)}
    {
      var k: nat :| 1 <= k <= n && s == PageName(k);
      if k < n {
        assert s in PageNameSet(n - 1);
      }
    }
    forall s | s in PageNameSet(n - 1)
      ensures s in PageNameSet(n)
    {
      var k: nat :| 1 <= k <= n - 1 && s == PageName(k);
    }
    assert PageName(n) in PageNameSet(n);
  }

  /** The page map has exactly the keys `page_1`..`page_n`, and `page_k`
      pairs the `k`-th PNG URL with the `k`-th JSON URL. */
  lemma PageMapEntries(pngUrls: seq<string>, jsonUrls: seq<string>)
    requires |pngUrls| <= |jsonUrls|
    ensures PageMap(pngUrls, jsonUrls).Keys == PageNameSet(|pngUrls|)
    ensures forall k: nat :: 1 <= k <= |pngUrls| ==>
      PageMap(pngUrls, jsonUrls)[PageName(k)] == UrlPair(pngUrls[k - 1], jsonUrls[k - 1])
  {
    PageMapKeys(pngUrls, jsonUrls);
    PageMapValues(pngUrls, jsonUrls);
  }

  lemma {:induction false} PageMapKeys(pngUrls: seq<string>, jsonUrls: seq<string>)
    requires |pngUrls| <= |jsonUrls|
    ensures PageMap(pngUrls, jsonUrls).Keys == PageNameSet(|pngUrls|)
  {
    if |pngUrls| > 0 {
      var n := |pngUrls| - 1;
      PageMapKeys(pngUrls[..n], jsonUrls);
      PageNameSetStep(n + 1);
    }
  }

  lemma {:induction false} PageMapValues(pngUrls: seq<string>, jsonUrls: seq<string>)
    requires |pngUrls| <= |jsonUrls|
    ensures forall k: nat :: 1 <= k <= |pngUrls| ==>
      PageName(k) in PageMap(pngUrls, jsonUrls) &&
      PageMap(pngUrls, jsonUrls)[PageName(k)] == UrlPair(pngUrls[k - 1], jsonUrls[k - 1])
  {
    if |pngUrls| > 0 {
      var n := |pngUrls| - 1;
      var init := pngUrls[..n];
      PageMapValues(init, jsonUrls);
      forall k: nat | 1 <= k <= n
        ensures PageMap(pngUrls, jsonUrls)[PageName(k)] == UrlPair(pngUrls[k - 1], jsonUrls[k - 1])
      {
        if PageName(k) == PageName(n + 1) {
          PageNameInjective(k, n + 1);
        }
        assert init[k - 1] == pngUrls[k - 1];
      }
    }
  }

  /** With the four advertised URL pairs the page map is
      `{page_1, page_2, page_3, page_4}`. */
  lemma FourPages(pngUrls: seq<string>, jsonUrls: seq<string>)
    requires |pngUrls| == 4 && |jsonUrls| == 4
    ensures PageMap(pngUrls, jsonUrls).Keys == {"page_1", "page_2", "page_3", "page_4"}
    ensures PageMap(pngUrls, jsonUrls)["page_1"] == UrlPair(pngUrls[0], jsonUrls[0])
    ensures PageMap(pngUrls, jsonUrls)["page_2"] == UrlPair(pngUrls[1], jsonUrls[1])
    ensures PageMap(pngUrls, jsonUrls)["page_3"] == UrlPair(pngUrls[2], jsonUrls[2])
    ensures PageMap(pngUrls, jsonUrls)["page_4"] == UrlPair(pngUrls[3], jsonUrls[3])
  {
    PageMapEntries(pngUrls, jsonUrls);
    FirstFourPageNames();
    PageNames();
  }

  lemma FirstFourPageNames()
    ensures PageNameSet(4) == {PageName(1), PageName(2), PageName(3), PageName(4)}
  {
    var keys := PageNameSet(4);
    forall s | s in keys
      ensures s == PageName(1) || s == PageName(2) || s == PageName(3) || s == PageName(4)
    {
      var k: nat :| 1 <= k <= 4 && s == PageName(k);
      assert k == 1 || k == 2 || k == 3 || k == 4;
    }
    assert PageName(1) in keys && PageName(2) in keys && PageName(3) in keys && PageName(4) in keys;
  }

  lemma PageNames()
    ensures PageName(1) == "page_1" && PageName(2) == "page_2"
    ensures PageName(3) == "page_3" && PageName(4) == "page_4"
  {
    assert Decimal.NatToString(1) == "1";
    assert Decimal.NatToString(2) == "2";
    assert Decimal.NatToString(3) == "3";
    assert Decimal.NatToString(4) == "4";
  }

  /** `pngUrls.map((url, idx) => ({ image_url: url, polotno_json: jsonUrls[idx] }))` */
  function Pairs(pngUrls: seq<string>, jsonUrls: seq<string>): seq<UrlPair>
    requires |pngUrls| <= |jsonUrls|
  {
    seq(|pngUrls|, i requires 0 <= i < |pngUrls| => UrlPair(pngUrls[i], jsonUrls[i]))
  }

  /** The workflow input `{ user_email, listing_id, seller_id, target_language }`. */
  datatype WorkflowInput = WorkflowInput(userEmail: string, listingId: string, sellerId: string, targetLanguage: string)

  datatype ObjectBody = JsonText(json: Parsed) | PngData(blob: Split.Blob)

  /** The calls a handler makes on its collaborators, in the order it
      starts them. */
  datatype Effect =
    | ReadListing(sellerId: string, listingId: string)
    | TriggerWorkflow(input: WorkflowInput)
    | PollExecution(executionArn: string)
    | FetchTemplate(url: string)
    | PutObject(key: string, body: ObjectBody, contentType: string)
    | UpdateListing(sellerId: string, listingId: string, updates: map<string, map<string, UrlPair>>)
    | NotifyClients(sellerId: string, listingId: string)

  function JsonUploads(arts: seq<Split.Artifact>): seq<Effect>
  {
    seq(|arts|, i requires 0 <= i < |arts| =>
      PutObject(Storage.ObjectKey(arts[i].idx, "json"), JsonText(arts[i].json), "application/json"))
  }

  function PngUploads(arts: seq<Split.Artifact>): seq<Effect>
  {
    seq(|arts|, i requires 0 <= i < |arts| =>
      PutObject(Storage.ObjectKey(arts[i].idx, "png"), PngData(arts[i].pngBlob), "image/png"))
  }

  /** The `Promise.all` of uploads: every JSON text, then every PNG. */
  function Uploads(arts: seq<Split.Artifact>): seq<Effect>
  {
    JsonUploads(arts) + PngUploads(arts)
  }

  /** Some upload is stored where `url` points. */
  ghost predicate Backs(effects: seq<Effect>, bucketUrl: string, url: string)
  {
    exists e :: e in effects && e.PutObject? && bucketUrl + "/" + e.key == url
  }

  /** An upload lands under a page key and a dot-free extension. */
  lemma UploadShape(arts: seq<Split.Artifact>, baseKey: string, e: Effect)
    requires forall i :: 0 <= i < |arts| ==> arts[i].idx == Split.PageKey(baseKey, i)
    requires e in Uploads(arts)
    ensures e.PutObject?
    ensures exists j, ext ::
      && 0 <= j < |arts|
      && (ext == "json" || ext == "png")
      && e.key == Storage.ObjectKey(Split.PageKey(baseKey, j), ext)
  {
    if e in JsonUploads(arts) {
      var j :| 0 <= j < |arts| && JsonUploads(arts)[j] == e;
      assert e.key == Storage.ObjectKey(Split.PageKey(baseKey, j), "json");
    } else {
      var j :| 0 <= j < |arts| && PngUploads(arts)[j] == e;
      assert e.key == Storage.ObjectKey(Split.PageKey(baseKey, j), "png");
    }
  }

  /** Advertised URL `i` (PNG or JSON) points at an uploaded object exactly
      when the template had a page `i`: with fewer than four pages the
      trailing URLs point at nothing. */
  lemma UploadsBackAdvertisedUrls(bucketUrl: string, baseKey: string, arts: seq<Split.Artifact>)
    requires forall i :: 0 <= i < |arts| ==> arts[i].idx == Split.PageKey(baseKey, i)
    ensures forall i :: 0 <= i < 4 ==> (Backs(Uploads(arts), bucketUrl, PngUrls(bucketUrl, baseKey)[i]) <==> i < |arts|)
    ensures forall i :: 0 <= i < 4 ==> (Backs(Uploads(arts), bucketUrl, JsonUrls(bucketUrl, baseKey)[i]) <==> i < |arts|)
  {
    forall i | 0 <= i < 4
      ensures Backs(Uploads(arts), bucketUrl, PngUrls(bucketUrl, baseKey)[i]) <==> i < |arts|
      ensures Backs(Uploads(arts), bucketUrl, JsonUrls(bucketUrl, baseKey)[i]) <==> i < |arts|
    {
      AdvertisedUrlKeys(bucketUrl, baseKey);
      UploadBacksKey(bucketUrl, baseKey, arts, i, "png");
      UploadBacksKey(bucketUrl, baseKey, arts, i, "json");
    }
  }

  /** The object for page `i` with extension `ext` is stored exactly when
      there is an artifact `i`. */
  lemma UploadBacksKey(bucketUrl: string, baseKey: string, arts: seq<Split.Artifact>, i: nat, ext: string)
    requires forall i :: 0 <= i < |arts| ==> arts[i].idx == Split.PageKey(baseKey, i)
    requires ext == "json" || ext == "png"
    ensures Backs(Uploads(arts), bucketUrl, bucketUrl + "/" + Storage.ObjectKey(Split.PageKey(baseKey, i), ext)) <==> i < |arts|
  {
    var prefix := bucketUrl + "/";
    var url := prefix + Storage.ObjectKey(Split.PageKey(baseKey, i), ext);
    if i < |arts| {
      var e := if ext == "json" then JsonUploads(arts)[i] else PngUploads(arts)[i];
      assert e in Uploads(arts);
    }
    if Backs(Uploads(arts), bucketUrl, url) {
      var e :| e in Uploads(arts) && e.PutObject? && bucketUrl + "/" + e.key == url;
      UploadShape(arts, baseKey, e);
      var j, ext' :| 0 <= j < |arts| && (ext' == "json" || ext' == "png") &&
        e.key == Storage.ObjectKey(Split.PageKey(baseKey, j), ext');
      assert e.key == (prefix + e.key)[|prefix|..] == url[|prefix|..] == Storage.ObjectKey(Split.PageKey(baseKey, i), ext);
      Storage.ObjectKeyInjective(Split.PageKey(baseKey, j), ext', Split.PageKey(baseKey, i), ext);
      Split.PageKeysDistinct(baseKey, j, i);
    }
  }

  /** Pages from the fifth on are uploaded but never advertised: their
      objects are stored, and no advertised URL points at them. */
  lemma UnadvertisedPagesUploaded(bucketUrl: string, baseKey: string, arts: seq<Split.Artifact>, i: nat, ext: string)
    requires forall i :: 0 <= i < |arts| ==> arts[i].idx == Split.PageKey(baseKey, i)
    requires 4 <= i < |arts| && (ext == "json" || ext == "png")
    ensures Backs(Uploads(arts), bucketUrl, bucketUrl + "/" + Storage.ObjectKey(Split.PageKey(baseKey, i), ext))
    ensures forall k :: 0 <= k < 4 ==>
      && PngUrls(bucketUrl, baseKey)[k] != bucketUrl + "/" + Storage.ObjectKey(Split.PageKey(baseKey, i), ext)
      && JsonUrls(bucketUrl, baseKey)[k] != bucketUrl + "/" + Storage.ObjectKey(Split.PageKey(baseKey, i), ext)
  {
    UploadBacksKey(bucketUrl, baseKey, arts, i, ext);
    AdvertisedUrlKeys(bucketUrl, baseKey);
    var prefix := bucketUrl + "/";
    var key := Storage.ObjectKey(Split.PageKey(baseKey, i), ext);
    forall k, ext' | 0 <= k < 4 && (ext' == "json" || ext' == "png")
      ensures prefix + Storage.ObjectKey(Split.PageKey(baseKey, k), ext') != prefix + key
    {
      var other := Storage.ObjectKey(Split.PageKey(baseKey, k), ext');
      if prefix + other == prefix + key {
        assert other == (prefix + other)[|prefix|..] == (prefix + key)[|prefix|..] == key;
        Storage.ObjectKeyInjective(Split.PageKey(baseKey, k), ext', Split.PageKey(baseKey, i), ext);
        Split.PageKeysDistinct(baseKey, k, i);
      }
    }
  }

  /** What is stored under page `i`'s keys: under the JSON key, page `i`'s
      single-page template as `application/json`; under the PNG key, that
      template's rendering as `image/png`. */
  lemma UploadContents(t: Template, baseKey: string, render: Template -> Split.Blob, i: nat, e: Effect)
    requires t.pages.Some? && i < |t.pages.value|
    requires e in Uploads(Split.JsonToBlobs(JsonObject(t), baseKey, render).value)
    ensures var one := Split.SinglePage(t, t.pages.value[i]);
      && e.PutObject?
      && (e.key == Storage.ObjectKey(Split.PageKey(baseKey, i), "json") ==>
            e == PutObject(e.key, JsonText(JsonObject(one)), "application/json"))
      && (e.key == Storage.ObjectKey(Split.PageKey(baseKey, i), "png") ==>
            e == PutObject(e.key, PngData(render(one)), "image/png"))
  {
    var arts := Split.JsonToBlobs(JsonObject(t), baseKey, render).value;
    var jsonKey := Storage.ObjectKey(Split.PageKey(baseKey, i), "json");
    var pngKey := Storage.ObjectKey(Split.PageKey(baseKey, i), "png");
    if e in JsonUploads(arts) {
      var j :| 0 <= j < |arts| && JsonUploads(arts)[j] == e;
      if e.key == jsonKey || e.key == pngKey {
        var ext := if e.key == jsonKey then "json" else "png";
        Storage.ObjectKeyInjective(Split.PageKey(baseKey, j), "json", Split.PageKey(baseKey, i), ext);
        Split.PageKeysDistinct(baseKey, j, i);
      }
    } else {
      var j :| 0 <= j < |arts| && PngUploads(arts)[j] == e;
      if e.key == jsonKey || e.key == pngKey {
        var ext := if e.key == jsonKey then "json" else "png";
        Storage.ObjectKeyInjective(Split.PageKey(baseKey, j), "png", Split.PageKey(baseKey, i), ext);
        Split.PageKeysDistinct(baseKey, j, i);
      }
    }
  }

  /** What the key-value store answers for the listing: an item, an empty
      result, or a thrown error with its message. */
  datatype Lookup = Found | NotFound | LookupFailed(message: string)

  /** What the polling call gives: the execution's output location, an HTTP
      error response (status and data), or an error without a response. */
  datatype PollReply = Polled(output: string) | PollRejected(status: int, data: string) | PollUnreachable

  /** A template body that `.json()` resolved to.  A body that does not
      parse makes `.json()` reject with a SyntaxError, which is a failed
      fetch carrying that error's message. */
  type Fetched = p: Parsed | !p.Unparsable? witness JsonNull

  /** The collaborators' replies, in the order the handlers ask for them:
      the listing, the workflow trigger (execution ARN or error message),
      the polling call, the fetched template (parsed, or the message of
      whatever `fetch` or `.json()` threw), and whether the listing update
      reported success. */
  datatype Replies = Replies(
    lookup: Lookup,
    trigger: Result<string, string>,
    poll: PollReply,
    template: Result<Fetched, string>,
    updated: bool)

  /** The validated request fields and the base key derived from them. */
  datatype Job = Job(sellerId: string, listingId: string, sellerEmail: string, language: string, baseKey: string)

  function JobOf(body: RequestBody, env: Env): (job: Job)
    requires HasRequiredFields(body)
  {
    Job(body.sellerId.value, body.listingId.value, body.sellerEmail.value, body.language.value,
        BaseKey(body.sellerEmail.value, body.listingId.value, env.timestamp))
  }

  /** The workflow started, finished, and left a template that can be split
      into pages. */
  predicate WorkflowDelivers(replies: Replies)
  {
    && replies.trigger.Success? && replies.poll.Polled? && replies.template.Success?
    && replies.template.value.JsonObject? && replies.template.value.t.pages.Some?
  }

  /** The number of pages in the delivered template. */
  function DeliveredPages(replies: Replies): nat
    requires WorkflowDelivers(replies)
  {
    |replies.template.value.t.pages.value|
  }

  /** Where the run from trigger to upload ends. */
  datatype Stop =
    | TriggerFailed(message: string)
    | PollFailed(reply: PollReply)
    | FetchFailed(message: string)
    | TemplateUnusable
    | Uploaded(artifacts: seq<Split.Artifact>)

  datatype Progress = Progress(effects: seq<Effect>, stop: Stop)

  /** Trigger the workflow, poll it, fetch the template it produced, split
      it and upload every page's JSON and PNG.  The 25-second wait between
      trigger and poll has no effect in the model. */
  function Run(job: Job, replies: Replies, render: Template -> Split.Blob): (p: Progress)
    ensures |p.effects| >= 1 &&
      p.effects[0] == TriggerWorkflow(WorkflowInput(job.sellerEmail, job.listingId, job.sellerId, job.language))
    ensures p.stop.Uploaded? <==> WorkflowDelivers(replies)
    ensures p.stop.Uploaded? ==> |p.stop.artifacts| == DeliveredPages(replies)
    ensures replies.trigger.Success? ==> |p.effects| >= 2 && p.effects[1] == PollExecution(replies.trigger.value)
    ensures replies.trigger.Success? && replies.poll.Polled? ==>
      |p.effects| >= 3 && p.effects[2] == FetchTemplate(replies.poll.output)
  {
    var trigger := [TriggerWorkflow(WorkflowInput(job.sellerEmail, job.listingId, job.sellerId, job.language))];
    match replies.trigger
    case Failure(message) => Progress(trigger, TriggerFailed(message))
    case Success(executionArn) =>
      var polled := trigger + [PollExecution(executionArn)];
      if !replies.poll.Polled? then Progress(polled, PollFailed(replies.poll))
      else
        var fetched := polled + [FetchTemplate(replies.poll.output)];
        match replies.template
        case Failure(message) => Progress(fetched, FetchFailed(message))
        case Success(template) =>
          match Split.JsonToBlobs(template, job.baseKey, render)
          case None => Progress(fetched, TemplateUnusable)
          case Some(arts) => Progress(fetched + Uploads(arts), Uploaded(arts))
  }

  /** The calls of a run: up to three calls that store nothing, then, when
      it uploaded, exactly the uploads; never a listing read, update or
      notification. */
  lemma RunEffects(job: Job, replies: Replies, render: Template -> Split.Blob)
    ensures var p := Run(job, replies, render);
      var ups := if p.stop.Uploaded? then Uploads(p.stop.artifacts) else [];
      && |ups| <= |p.effects| <= |ups| + 3
      && p.effects == p.effects[..|p.effects| - |ups|] + ups
      && (forall i :: 0 <= i < |p.effects| - |ups| ==> !p.effects[i].PutObject?)
      && (forall i :: 0 <= i < |p.effects| ==>
            !p.effects[i].UpdateListing? && !p.effects[i].NotifyClients? && !p.effects[i].ReadListing?)
  {
    var p := Run(job, replies, render);
    RunTrace(job, replies, render);
    if p.stop.Uploaded? {
      UploadsArePuts(p.stop.artifacts);
      TraceShape(Preamble(job, replies), Uploads(p.stop.artifacts));
    } else {
      TraceShape(Preamble(job, replies), []);
    }
  }

  /** Calls that store nothing followed by uploads. */
  lemma TraceShape(pre: seq<Effect>, ups: seq<Effect>)
    requires |pre| <= 3
    requires forall i :: 0 <= i < |pre| ==> pre[i].TriggerWorkflow? || pre[i].PollExecution? || pre[i].FetchTemplate?
    requires forall i :: 0 <= i < |ups| ==> ups[i].PutObject?
    ensures var effects := pre + ups;
      && |ups| <= |effects| <= |ups| + 3
      && effects == effects[..|effects| - |ups|] + ups
      && (forall i :: 0 <= i < |effects| - |ups| ==> !effects[i].PutObject?)
      && (forall i :: 0 <= i < |effects| ==>
            !effects[i].UpdateListing? && !effects[i].NotifyClients? && !effects[i].ReadListing?)
  {
    var effects := pre + ups;
    assert effects[..|pre|] == pre;
    forall i | 0 <= i < |effects|
      ensures !effects[i].UpdateListing? && !effects[i].NotifyClients? && !effects[i].ReadListing?
    {
      if i >= |pre| {
        assert effects[i] == ups[i - |pre|];
      }
    }
  }

  /** The calls a run makes before any upload: the trigger, then the poll
      once triggered, then the fetch once polled. */
  function Preamble(job: Job, replies: Replies): (pre: seq<Effect>)
    ensures 1 <= |pre| <= 3
    ensures forall i :: 0 <= i < |pre| ==> pre[i].TriggerWorkflow? || pre[i].PollExecution? || pre[i].FetchTemplate?
  {
    var trigger := [TriggerWorkflow(WorkflowInput(job.sellerEmail, job.listingId, job.sellerId, job.language))];
    if replies.trigger.Failure? then trigger
    else if !replies.poll.Polled? then trigger + [PollExecution(replies.trigger.value)]
    else trigger + [PollExecution(replies.trigger.value), FetchTemplate(replies.poll.output)]
  }

  lemma RunTrace(job: Job, replies: Replies, render: Template -> Split.Blob)
    ensures var p := Run(job, replies, render);
      p.effects == Preamble(job, replies) + if p.stop.Uploaded? then Uploads(p.stop.artifacts) else []
  {
    var p := Run(job, replies, render);
    if !p.stop.Uploaded? {
      assert p.effects + [] == p.effects;
    }
  }

  /** The artifacts of a run are keyed by page index under the job's base
      key. */
  lemma RunArtifactKeys(job: Job, replies: Replies, render: Template -> Split.Blob)
    ensures var p := Run(job, replies, render);
      p.stop.Uploaded? ==>
        forall i :: 0 <= i < |p.stop.artifacts| ==> p.stop.artifacts[i].idx == Split.PageKey(job.baseKey, i)
  {
  }

  /** A run never reads, updates or announces the listing. */
  lemma RunMakesNoListingCalls(job: Job, replies: Replies, render: Template -> Split.Blob)
    ensures forall e :: e in Run(job, replies, render).effects ==>
      !e.UpdateListing? && !e.NotifyClients? && !e.ReadListing?
  {
    var p := Run(job, replies, render);
    RunEffects(job, replies, render);
    forall e | e in p.effects
      ensures !e.UpdateListing? && !e.NotifyClients? && !e.ReadListing?
    {
      var i :| 0 <= i < |p.effects| && p.effects[i] == e;
    }
  }

  lemma UploadsArePuts(arts: seq<Split.Artifact>)
    ensures forall i :: 0 <= i < |Uploads(arts)| ==> Uploads(arts)[i].PutObject?
  {
  }

  /** Why a 500 response was sent: a caught error's message, or a runtime
      TypeError raised by the handler's own code. */
  datatype ErrorCause = Reported(message: string) | RuntimeTypeError

  /** The JSON bodies the handlers send. */
  datatype Body =
    | ErrorBody(error: string)
    | MessageBody(message: string)
    | InternalError(message: string, cause: ErrorCause)
    | PairsBody(pairs: seq<UrlPair>)
    | PassedThrough(data: string)

  datatype Response = Response(statusCode: int, body: Body)

  /** A handler's response together with every call it made, including
      those made after responding. */
  datatype Outcome = Outcome(response: Response, effects: seq<Effect>)

  /** A URL is backed by a trace exactly when it is backed by one of its
      two parts. */
  lemma BacksSplit(a: seq<Effect>, b: seq<Effect>, bucketUrl: string, url: string)
    ensures Backs(a + b, bucketUrl, url) <==> Backs(a, bucketUrl, url) || Backs(b, bucketUrl, url)
  {
    if Backs(a + b, bucketUrl, url) {
      var e :| e in a + b && e.PutObject? && bucketUrl + "/" + e.key == url;
      assert e in a || e in b;
    }
    if Backs(a, bucketUrl, url) {
      var e :| e in a && e.PutObject? && bucketUrl + "/" + e.key == url;
      assert e in a + b;
    }
    if Backs(b, bucketUrl, url) {
      var e :| e in b && e.PutObject? && bucketUrl + "/" + e.key == url;
      assert e in a + b;
    }
  }

  /** Only the uploads of a run store objects: a URL is backed by the run's
      effects exactly when the run uploaded and one of its uploads backs it. */
  lemma RunBacks(job: Job, replies: Replies, render: Template -> Split.Blob, bucketUrl: string, url: string)
    ensures var p := Run(job, replies, render);
      Backs(p.effects, bucketUrl, url) <==> p.stop.Uploaded? && Backs(Uploads(p.stop.artifacts), bucketUrl, url)
  {
    var p := Run(job, replies, render);
    RunEffects(job, replies, render);
    if p.stop.Uploaded? {
      var n := |p.effects| - |Uploads(p.stop.artifacts)|;
      var pre := p.effects[..n];
      NoUploadBacksNothing(pre, bucketUrl, url);
      BacksSplit(pre, Uploads(p.stop.artifacts), bucketUrl, url);
    } else {
      NoUploadBacksNothing(p.effects, bucketUrl, url);
    }
  }

  lemma NoUploadBacksNothing(effects: seq<Effect>, bucketUrl: string, url: string)
    requires forall i :: 0 <= i < |effects| ==> !effects[i].PutObject?
    ensures !Backs(effects, bucketUrl, url)
  {
  }

  /** Advertised URL `i` points at an object the run stored exactly when the
      workflow delivered a template with a page `i`. */
  lemma RunBacksAdvertisedUrls(job: Job, replies: Replies, render: Template -> Split.Blob, bucketUrl: string)
    ensures forall i :: 0 <= i < 4 ==>
      (Backs(Run(job, replies, render).effects, bucketUrl, PngUrls(bucketUrl, job.baseKey)[i]) <==>
        WorkflowDelivers(replies) && i < DeliveredPages(replies))
    ensures forall i :: 0 <= i < 4 ==>
      (Backs(Run(job, replies, render).effects, bucketUrl, JsonUrls(bucketUrl, job.baseKey)[i]) <==>
        WorkflowDelivers(replies) && i < DeliveredPages(replies))
  {
    var p := Run(job, replies, render);
    forall i | 0 <= i < 4
      ensures Backs(p.effects, bucketUrl, PngUrls(bucketUrl, job.baseKey)[i]) <==>
        WorkflowDelivers(replies) && i < DeliveredPages(replies)
      ensures Backs(p.effects, bucketUrl, JsonUrls(bucketUrl, job.baseKey)[i]) <==>
        WorkflowDelivers(replies) && i < DeliveredPages(replies)
    {
      RunBacks(job, replies, render, bucketUrl, PngUrls(bucketUrl, job.baseKey)[i]);
      RunBacks(job, replies, render, bucketUrl, JsonUrls(bucketUrl, job.baseKey)[i]);
      if p.stop.Uploaded? {
        RunArtifactKeys(job, replies, render);
        UploadsBackAdvertisedUrls(bucketUrl, job.baseKey, p.stop.artifacts);
      }
    }
  }

  /** After a run that delivered a template `t`, whatever is stored where
      advertised URL `i` points is page `i`'s content: the JSON URL serves
      page `i`'s single-page template, the PNG URL its rendering. */
  lemma RunStoresPages(job: Job, replies: Replies, render: Template -> Split.Blob, bucketUrl: string, i: nat, e: Effect)
    requires WorkflowDelivers(replies) && i < 4 && i < DeliveredPages(replies)
    requires e in Run(job, replies, render).effects && e.PutObject?
    ensures var t := replies.template.value.t;
      var one := Split.SinglePage(t, t.pages.value[i]);
      && (bucketUrl + "/" + e.key == JsonUrls(bucketUrl, job.baseKey)[i] ==>
            e.body == JsonText(JsonObject(one)) && e.contentType == "application/json")
      && (bucketUrl + "/" + e.key == PngUrls(bucketUrl, job.baseKey)[i] ==>
            e.body == PngData(render(one)) && e.contentType == "image/png")
  {
    var t := replies.template.value.t;
    var p := Run(job, replies, render);
    var arts := Split.JsonToBlobs(JsonObject(t), job.baseKey, render).value;
    RunTrace(job, replies, render);
    var pre := Preamble(job, replies);
    assert p.effects == pre + Uploads(arts);
    AdvertisedUrlKeys(bucketUrl, job.baseKey);
    UploadContents(t, job.baseKey, render, i, e);
    var prefix := bucketUrl + "/";
    var jsonKey := Storage.ObjectKey(Split.PageKey(job.baseKey, i), "json");
    var pngKey := Storage.ObjectKey(Split.PageKey(job.baseKey, i), "png");
    if prefix + e.key == prefix + jsonKey {
      assert e.key == (prefix + e.key)[|prefix|..] == (prefix + jsonKey)[|prefix|..] == jsonKey;
    }
    if prefix + e.key == prefix + pngKey {
      assert e.key == (prefix + e.key)[|prefix|..] == (prefix + pngKey)[|prefix|..] == pngKey;
    }
  }
}

=== FILE: aplus_index.dfy ===
/** The fire-and-forget A+ handler (src/generate_aplus/index.js): it checks
    the request and the listing, answers at once, and runs the workflow in
    the background, finishing with a listing update and a client
    notification. */
module AplusIndex {
  import opened Wrappers
  import opened Template
  import Split
  import opened Aplus

  /** The listing attribute the background task writes. */
  const AplusAttribute := "aplus"

  /** The acknowledgement sent when the listing exists. */
  function TriggeredMessage(sellerId: string, listingId: string): string
  {
    "set-aplus triggered for seller " + sellerId + " listing " + listingId
  }

  /** The listing update: `{ aplus: aplusData }` with the four advertised
      page entries, whatever the template held. */
  function AplusUpdate(job: Job, env: Env): Effect
  {
    UpdateListing(job.sellerId, job.listingId,
      map[AplusAttribute := PageMap(PngUrls(env.bucketUrl, job.baseKey), JsonUrls(env.bucketUrl, job.baseKey))])
  }

  /** What follows the uploads: the update, then the notification if the
      update reported success; nothing when the run did not upload. */
  function FollowUps(job: Job, env: Env, updated: bool, stop: Stop): seq<Effect>
  {
    if !stop.Uploaded? then []
    else if updated then [AplusUpdate(job, env), NotifyClients(job.sellerId, job.listingId)]
    else [AplusUpdate(job, env)]
  }

  /** The task handed to `setImmediate`: the run, then its follow-ups.  Any
      failure inside ends the task silently. */
  function Background(job: Job, env: Env, replies: Replies, render: Template -> Split.Blob): seq<Effect>
  {
    var p := Run(job, replies, render);
    p.effects + FollowUps(job, env, replies.updated, p.stop)
  }

  /** The handler: the response it returns and every call it makes,
      including the background task's. */
  function Handle(body: RequestBody, env: Env, replies: Replies, render: Template -> Split.Blob): (r: Outcome)
    ensures r.response.statusCode == 400 <==> !HasRequiredFields(body)
    ensures !HasRequiredFields(body) ==> r == Outcome(Response(400, ErrorBody(MissingFieldsMessage)), [])
    ensures HasRequiredFields(body) ==>
      && |r.effects| >= 1
      && r.effects[0] == ReadListing(body.sellerId.value, body.listingId.value)
      && (r.response.statusCode == 404 <==> replies.lookup.NotFound?)
      && (r.response.statusCode == 200 <==> replies.lookup.Found?)
      && (r.response.statusCode == 500 <==> replies.lookup.LookupFailed?)
    ensures r.response.statusCode == 404 ==>
      r.response.body == MessageBody(NotFoundMessage) && |r.effects| == 1
    ensures replies.lookup.LookupFailed? && HasRequiredFields(body) ==>
      r.response.body == InternalError(InternalErrorMessage, Reported(replies.lookup.message)) && |r.effects| == 1
    ensures r.response.statusCode == 200 ==>
      r.response.body == MessageBody(TriggeredMessage(body.sellerId.value, body.listingId.value)) &&
      |r.effects| >= 2 &&
      r.effects[1] == TriggerWorkflow(WorkflowInput(body.sellerEmail.value, body.listingId.value, body.sellerId.value, body.language.value))
  {
    if !HasRequiredFields(body) then Outcome(Response(400, ErrorBody(MissingFieldsMessage)), [])
    else
      var job := JobOf(body, env);
      var read := [ReadListing(job.sellerId, job.listingId)];
      match replies.lookup
      case LookupFailed(message) => Outcome(Response(500, InternalError(InternalErrorMessage, Reported(message))), read)
      case NotFound => Outcome(Response(404, MessageBody(NotFoundMessage)), read)
      case Found =>
        var tasks := Background(job, env, replies, render);
        Outcome(Response(200, MessageBody(TriggeredMessage(job.sellerId, job.listingId))), read + tasks)
  }

  /** The workflow is triggered exactly when the handler acknowledges. */
  lemma TriggeredOnlyWhenAcknowledged(body: RequestBody, env: Env, replies: Replies, render: Template -> Split.Blob)
    ensures var r := Handle(body, env, replies, render);
      (exists e :: e in r.effects && e.TriggerWorkflow?) <==> r.response.statusCode == 200
  {
    var r := Handle(body, env, replies, render);
    if r.response.statusCode == 200 {
      assert r.effects[1] in r.effects;
    }
  }

  /** The response is decided before the background task starts: replies
      the task receives never change it. */
  lemma ResponseIgnoresBackground(body: RequestBody, env: Env, a: Replies, b: Replies, render: Template -> Split.Blob)
    requires a.lookup == b.lookup
    ensures Handle(body, env, a, render).response == Handle(body, env, b, render).response
  {
  }

  /** The listing update writes only the `aplus` attribute, holding
      `page_1`..`page_4` with the advertised PNG and JSON URLs. */
  lemma AplusUpdateContents(job: Job, env: Env)
    ensures var e := AplusUpdate(job, env);
      var png := PngUrls(env.bucketUrl, job.baseKey);
      var json := JsonUrls(env.bucketUrl, job.baseKey);
      && e.sellerId == job.sellerId && e.listingId == job.listingId
      && e.updates.Keys == {"aplus"}
      && e.updates["aplus"].Keys == {"page_1", "page_2", "page_3", "page_4"}
      && e.updates["aplus"]["page_1"] == UrlPair(png[0], json[0])
      && e.updates["aplus"]["page_2"] == UrlPair(png[1], json[1])
      && e.updates["aplus"]["page_3"] == UrlPair(png[2], json[2])
      && e.updates["aplus"]["page_4"] == UrlPair(png[3], json[3])
  {
    FourPages(PngUrls(env.bucketUrl, job.baseKey), JsonUrls(env.bucketUrl, job.baseKey));
  }

  /** The listing is updated exactly when it was found and the uploads
      completed, and every update is the `aplus` update. */
  lemma UpdateOnlyAfterUploads(body: RequestBody, env: Env, replies: Replies, render: Template -> Split.Blob)
    requires HasRequiredFields(body)
    ensures (exists e :: e in Handle(body, env, replies, render).effects && e.UpdateListing?) <==>
      replies.lookup.Found? && WorkflowDelivers(replies)
    ensures forall e :: e in Handle(body, env, replies, render).effects && e.UpdateListing? ==>
      e == AplusUpdate(JobOf(body, env), env)
  {
    var job := JobOf(body, env);
    var r := Handle(body, env, replies, render);
    if replies.lookup.Found? {
      var p := Run(job, replies, render);
      var read := [ReadListing(job.sellerId, job.listingId)];
      var f := FollowUps(job, env, replies.updated, p.stop);
      RunMakesNoListingCalls(job, replies, render);
      assert r.effects == read + p.effects + f;
      if p.stop.Uploaded? {
        assert f[0] == AplusUpdate(job, env);
      }
    }
  }

  /** Clients are notified only after an update that reported success, and
      the notification is the last call, right after that update. */
  lemma NotifyOnlyAfterSuccessfulUpdate(body: RequestBody, env: Env, replies: Replies, render: Template -> Split.Blob)
    requires HasRequiredFields(body)
    ensures var r := Handle(body, env, replies, render);
      (exists e :: e in r.effects && e.NotifyClients?) <==>
        replies.lookup.Found? && WorkflowDelivers(replies) && replies.updated
    ensures var r := Handle(body, env, replies, render);
      (exists e :: e in r.effects && e.NotifyClients?) ==>
        && |r.effects| >= 2
        && r.effects[|r.effects| - 1] == NotifyClients(body.sellerId.value, body.listingId.value)
        && r.effects[|r.effects| - 2].UpdateListing?
        && forall e :: e in r.effects[..|r.effects| - 1] ==> !e.NotifyClients?
  {
    var job := JobOf(body, env);
    var r := Handle(body, env, replies, render);
    if replies.lookup.Found? {
      var p := Run(job, replies, render);
      var read := [ReadListing(job.sellerId, job.listingId)];
      var f := FollowUps(job, env, replies.updated, p.stop);
      RunMakesNoListingCalls(job, replies, render);
      assert r.effects == read + p.effects + f;
      if p.stop.Uploaded? && replies.updated {
        assert r.effects[..|r.effects| - 1] == read + p.effects + [AplusUpdate(job, env)];
        assert r.effects[|r.effects| - 1] in r.effects;
      }
    }
  }

  /** The page map the update writes always names four pages, but advertised
      page `i` (from 0) points at a stored object exactly when the template
      the workflow delivered had a page `i`. */
  lemma AdvertisedUrlsBacked(body: RequestBody, env: Env, replies: Replies, render: Template -> Split.Blob)
    requires HasRequiredFields(body)
    ensures var job := JobOf(body, env);
      var effects := Handle(body, env, replies, render).effects;
      forall i :: 0 <= i < 4 ==>
        (Backs(effects, env.bucketUrl, PngUrls(env.bucketUrl, job.baseKey)[i]) <==>
          replies.lookup.Found? && WorkflowDelivers(replies) && i < DeliveredPages(replies))
    ensures var job := JobOf(body, env);
      var effects := Handle(body, env, replies, render).effects;
      forall i :: 0 <= i < 4 ==>
        (Backs(effects, env.bucketUrl, JsonUrls(env.bucketUrl, job.baseKey)[i]) <==>
          replies.lookup.Found? && WorkflowDelivers(replies) && i < DeliveredPages(replies))
  {
    var job := JobOf(body, env);
    var r := Handle(body, env, replies, render);
    var read := [ReadListing(job.sellerId, job.listingId)];
    RunBacksAdvertisedUrls(job, replies, render, env.bucketUrl);
    var p := Run(job, replies, render);
    var tail := FollowUps(job, env, replies.updated, p.stop);
    forall url
      ensures Backs(r.effects, env.bucketUrl, url) <==> replies.lookup.Found? && Backs(p.effects, env.bucketUrl, url)
    {
      NoUploadBacksNothing(read, env.bucketUrl, url);
      NoUploadBacksNothing(tail, env.bucketUrl, url);
      if replies.lookup.Found? {
        assert r.effects == read + p.effects + tail;
        BacksSplit(read, p.effects, env.bucketUrl, url);
        BacksSplit(read + p.effects, tail, env.bucketUrl, url);
      } else {
        NoUploadBacksNothing(r.effects, env.bucketUrl, url);
      }
    }
  }

  /** Whatever the background task stores where the `aplus` update's page
      `i + 1` points is page `i`'s content: the `polotno_json` URL serves
      page `i`'s single-page template as JSON, the `image_url` its
      rendering as a PNG. */
  lemma UpdatedPagesServePages(body: RequestBody, env: Env, replies: Replies, render: Template -> Split.Blob, i: nat)
    requires HasRequiredFields(body) && i < 4 && replies.lookup.Found?
    requires WorkflowDelivers(replies) && i < DeliveredPages(replies)
    ensures var job := JobOf(body, env);
      var t := replies.template.value.t;
      var one := Split.SinglePage(t, t.pages.value[i]);
      forall e :: e in Handle(body, env, replies, render).effects && e.PutObject? ==>
        && (env.bucketUrl + "/" + e.key == JsonUrls(env.bucketUrl, job.baseKey)[i] ==>
              e.body == JsonText(JsonObject(one)) && e.contentType == "application/json")
        && (env.bucketUrl + "/" + e.key == PngUrls(env.bucketUrl, job.baseKey)[i] ==>
              e.body == PngData(render(one)) && e.contentType == "image/png")
  {
    var job := JobOf(body, env);
    var r := Handle(body, env, replies, render);
    var read := [ReadListing(job.sellerId, job.listingId)];
    var p := Run(job, replies, render);
    var tail := FollowUps(job, env, replies.updated, p.stop);
    assert r.effects == read + p.effects + tail;
    forall e | e in r.effects && e.PutObject?
      ensures var t := replies.template.value.t;
        var one := Split.SinglePage(t, t.pages.value[i]);
        && (env.bucketUrl + "/" + e.key == JsonUrls(env.bucketUrl, job.baseKey)[i] ==>
              e.body == JsonText(JsonObject(one)) && e.contentType == "application/json")
        && (env.bucketUrl + "/" + e.key == PngUrls(env.bucketUrl, job.baseKey)[i] ==>
              e.body == PngData(render(one)) && e.contentType == "image/png")
    {
      assert e in p.effects;
      RunStoresPages(job, replies, render, env.bucketUrl, i, e);
    }
  }
}

=== FILE: aplus_main.dfy ===
/** The synchronous A+ handler (src/generate_aplus/main.js): it checks the
    request and the listing, runs the workflow to the end, and answers with
    the four advertised PNG/JSON URL pairs, a polling error passed through,
    or an internal error. */
module AplusMain {
  import opened Wrappers
  import opened Template
  import Storage
  import Split
  import opened Aplus

  /** The response for a run that ended at `stop`.  A polling error without
      an HTTP response, and a template `jsonToBlobs` cannot split, make the
      handler's own code raise a TypeError, which the outer handler turns
      into a 500. */
  function Respond(stop: Stop, env: Env, job: Job): Response
  {
    match stop
    case TriggerFailed(message) => Response(500, InternalError(InternalErrorMessage, Reported(message)))
    case PollFailed(reply) =>
      if reply.PollRejected? then Response(reply.status, PassedThrough(reply.data))
      else Response(500, InternalError(InternalErrorMessage, RuntimeTypeError))
    case FetchFailed(message) => Response(500, InternalError(InternalErrorMessage, Reported(message)))
    case TemplateUnusable => Response(500, InternalError(InternalErrorMessage, RuntimeTypeError))
    case Uploaded(_) => Response(200, PairsBody(Pairs(PngUrls(env.bucketUrl, job.baseKey), JsonUrls(env.bucketUrl, job.baseKey))))
  }

  /** The handler: the response it returns and every call it makes. */
  function Handle(body: RequestBody, env: Env, replies: Replies, render: Template -> Split.Blob): (r: Outcome)
    ensures r.response == Response(400, ErrorBody(MissingFieldsMessage)) <==> !HasRequiredFields(body)
    ensures !HasRequiredFields(body) ==> r.effects == []
    ensures HasRequiredFields(body) ==>
      |r.effects| >= 1 && r.effects[0] == ReadListing(body.sellerId.value, body.listingId.value)
    ensures r.response.body == MessageBody(NotFoundMessage) <==> HasRequiredFields(body) && replies.lookup.NotFound?
    ensures r.response.body == MessageBody(NotFoundMessage) ==> r.response.statusCode == 404 && |r.effects| == 1
    ensures HasRequiredFields(body) && replies.lookup.LookupFailed? ==>
      r == Outcome(Response(500, InternalError(InternalErrorMessage, Reported(replies.lookup.message))),
                   [ReadListing(body.sellerId.value, body.listingId.value)])
    ensures r.response.body.PairsBody? <==>
      HasRequiredFields(body) && replies.lookup.Found? && WorkflowDelivers(replies)
    ensures r.response.body.PairsBody? ==>
      && r.response.statusCode == 200
      && |r.response.body.pairs| == 4
      && forall i :: 0 <= i < 4 ==>
        var baseKey := BaseKey(body.sellerEmail.value, body.listingId.value, env.timestamp);
        r.response.body.pairs[i] == UrlPair(
          env.bucketUrl + "/" + Storage.ObjectKey(Split.PageKey(baseKey, i), "png"),
          env.bucketUrl + "/" + Storage.ObjectKey(Split.PageKey(baseKey, i), "json"))
  {
    if !HasRequiredFields(body) then Outcome(Response(400, ErrorBody(MissingFieldsMessage)), [])
    else
      var job := JobOf(body, env);
      var read := [ReadListing(job.sellerId, job.listingId)];
      match replies.lookup
      case LookupFailed(message) => Outcome(Response(500, InternalError(InternalErrorMessage, Reported(message))), read)
      case NotFound => Outcome(Response(404, MessageBody(NotFoundMessage)), read)
      case Found =>
        var p := Run(job, replies, render);
        AdvertisedUrlKeys(env.bucketUrl, job.baseKey);
        Outcome(Respond(p.stop, env, job), read + p.effects)
  }

  /** The workflow is triggered only for a listing that exists, and objects
      are stored only when it delivered a template with at least one page. */
  lemma CallsMade(body: RequestBody, env: Env, replies: Replies, render: Template -> Split.Blob)
    ensures var r := Handle(body, env, replies, render);
      (exists e :: e in r.effects && e.TriggerWorkflow?) <==> HasRequiredFields(body) && replies.lookup.Found?
    ensures var r := Handle(body, env, replies, render);
      (exists e :: e in r.effects && e.PutObject?) <==>
        HasRequiredFields(body) && replies.lookup.Found? && WorkflowDelivers(replies) && DeliveredPages(replies) > 0
  {
    var r := Handle(body, env, replies, render);
    if HasRequiredFields(body) && replies.lookup.Found? {
      var job := JobOf(body, env);
      var read := [ReadListing(job.sellerId, job.listingId)];
      var p := Run(job, replies, render);
      assert r.effects == read + p.effects;
      assert p.effects[0] in r.effects;
      if p.stop.Uploaded? && |p.stop.artifacts| > 0 {
        var n := |p.effects| - |Uploads(p.stop.artifacts)|;
        assert p.effects[n] == Uploads(p.stop.artifacts)[0];
        assert p.effects[n] in r.effects;
      }
      if exists e :: e in r.effects && e.PutObject? {
        var e :| e in r.effects && e.PutObject?;
        assert e in p.effects;
      }
    }
  }

  /** A polling call rejected with an HTTP response answers with that
      response's status and data, after the trigger and the poll and before
      any fetch or upload. */
  lemma PollErrorPassedThrough(body: RequestBody, env: Env, replies: Replies, render: Template -> Split.Blob)
    requires HasRequiredFields(body) && replies.lookup.Found?
    ensures var r := Handle(body, env, replies, render);
      r.response.body.PassedThrough? <==> replies.trigger.Success? && replies.poll.PollRejected?
    ensures var r := Handle(body, env, replies, render);
      replies.trigger.Success? && replies.poll.PollRejected? ==>
        && r.response == Response(replies.poll.status, PassedThrough(replies.poll.data))
        && |r.effects| == 3
        && r.effects[2] == PollExecution(replies.trigger.value)
  {
  }

  /** Every failure after the listing was found, other than a rejected poll,
      is a 500; the cause is the caught error's message, or a TypeError when
      the poll got no response or the template could not be split. */
  lemma FailuresAreInternalErrors(body: RequestBody, env: Env, replies: Replies, render: Template -> Split.Blob)
    requires HasRequiredFields(body) && replies.lookup.Found?
    requires !WorkflowDelivers(replies)
    requires !(replies.trigger.Success? && replies.poll.PollRejected?)
    ensures var r := Handle(body, env, replies, render);
      && r.response.statusCode == 500
      && r.response.body.InternalError?
      && r.response.body.message == InternalErrorMessage
      && (r.response.body.cause == RuntimeTypeError <==>
            replies.trigger.Success? && (replies.poll.PollUnreachable? || replies.template.Success?))
      && (replies.trigger.Failure? ==> r.response.body.cause == Reported(replies.trigger.error))
      && (replies.trigger.Success? && replies.poll.Polled? && replies.template.Failure? ==>
            r.response.body.cause == Reported(replies.template.error))
  {
  }

  /** Pair `i` of the answer points at stored objects exactly when the
      template had a page `i`: the answer always lists four pairs, and with
      fewer pages the trailing ones point at nothing. */
  lemma AnsweredPairsBacked(body: RequestBody, env: Env, replies: Replies, render: Template -> Split.Blob)
    requires HasRequiredFields(body)
    ensures var r := Handle(body, env, replies, render);
      r.response.body.PairsBody? ==>
        forall i :: 0 <= i < 4 ==>
          && (Backs(r.effects, env.bucketUrl, r.response.body.pairs[i].imageUrl) <==> i < DeliveredPages(replies))
          && (Backs(r.effects, env.bucketUrl, r.response.body.pairs[i].polotnoJson) <==> i < DeliveredPages(replies))
  {
    var r := Handle(body, env, replies, render);
    if r.response.body.PairsBody? {
      var job := JobOf(body, env);
      var read := [ReadListing(job.sellerId, job.listingId)];
      var p := Run(job, replies, render);
      assert r.effects == read + p.effects;
      RunBacksAdvertisedUrls(job, replies, render, env.bucketUrl);
      forall url
        ensures Backs(r.effects, env.bucketUrl, url) <==> Backs(p.effects, env.bucketUrl, url)
      {
        NoUploadBacksNothing(read, env.bucketUrl, url);
        BacksSplit(read, p.effects, env.bucketUrl, url);
      }
    }
  }

  /** Whatever is stored where answered pair `i` points is page `i`'s
      content: the `polotno_json` URL serves page `i`'s single-page
      template as JSON, the `image_url` its rendering as a PNG. */
  lemma AnsweredPairsServePages(body: RequestBody, env: Env, replies: Replies, render: Template -> Split.Blob, i: nat)
    requires HasRequiredFields(body) && i < 4
    ensures Handle(body, env, replies, render).response.body.PairsBody? ==> WorkflowDelivers(replies)
    ensures var r := Handle(body, env, replies, render);
      r.response.body.PairsBody? && i < DeliveredPages(replies) ==>
        var t := replies.template.value.t;
        var one := Split.SinglePage(t, t.pages.value[i]);
        forall e :: e in r.effects && e.PutObject? ==>
          && (env.bucketUrl + "/" + e.key == r.response.body.pairs[i].polotnoJson ==>
                e.body == JsonText(JsonObject(one)) && e.contentType == "application/json")
          && (env.bucketUrl + "/" + e.key == r.response.body.pairs[i].imageUrl ==>
                e.body == PngData(render(one)) && e.contentType == "image/png")
  {
    var r := Handle(body, env, replies, render);
    if r.response.body.PairsBody? && i < DeliveredPages(replies) {
      var job := JobOf(body, env);
      var read := [ReadListing(job.sellerId, job.listingId)];
      var p := Run(job, replies, render);
      assert r.effects == read + p.effects;
      AdvertisedUrlKeys(env.bucketUrl, job.baseKey);
      forall e | e in r.effects && e.PutObject?
        ensures var t := replies.template.value.t;
          var one := Split.SinglePage(t, t.pages.value[i]);
          && (env.bucketUrl + "/" + e.key == r.response.body.pairs[i].polotnoJson ==>
                e.body == JsonText(JsonObject(one)) && e.contentType == "application/json")
          && (env.bucketUrl + "/" + e.key == r.response.body.pairs[i].imageUrl ==>
                e.body == PngData(render(one)) && e.contentType == "image/png")
      {
        assert e in p.effects;
        RunStoresPages(job, replies, render, env.bucketUrl, i, e);
      }
    }
  }
}

=== FILE: collections.dfy ===
/** Sequence operations the template merge is built from: in-order
    concatenation of lists (JavaScript's `[...a, ...b]`) and removal of
    repeated values keeping first occurrences (`Array.from(new Set(xs))`). */
module Collections {

  /** The lists of `ss` joined end to end, in order. */
  function Flatten<T>(ss: seq<seq<T>>): seq<T>
  {
    if |ss| == 0 then [] else Flatten(ss[..|ss| - 1]) + ss[|ss| - 1]
  }

  /** The sum of the lengths of the lists of `ss`. */
  function TotalLength<T>(ss: seq<seq<T>>): nat
  {
    if |ss| == 0 then 0 else TotalLength(ss[..|ss| - 1]) + |ss[|ss| - 1]|
  }

  lemma FlattenSnoc<T>(ss: seq<seq<T>>, s: seq<T>)
    ensures Flatten(ss + [s]) == Flatten(ss) + s
  {
    assert (ss + [s])[..|ss|] == ss;
  }

  /** Concatenation loses and invents nothing: its length is the sum of the
      parts' lengths. */
  lemma {:induction false} FlattenLength<T>(ss: seq<seq<T>>)
    ensures |Flatten(ss)| == TotalLength(ss)
  {
    if |ss| > 0 {
      FlattenLength(ss[..|ss| - 1]);
    }
  }

  /** Element `j` of part `k` sits in the concatenation right after all the
      elements of parts `0..k-1`: the parts keep their order and contents. */
  lemma {:induction false} FlattenIndex<T>(ss: seq<seq<T>>, k: nat, j: nat)
    requires k < |ss| && j < |ss[k]|
    ensures TotalLength(ss[..k]) + j < |Flatten(ss)|
    ensures Flatten(ss)[TotalLength(ss[..k]) + j] == ss[k][j]
  {
    var n := |ss| - 1;
    var init := ss[..n];
    FlattenLength(init);
    if k == n {
      assert ss[..k] == init;
    } else {
      assert init[..k] == ss[..k];
      FlattenIndex(init, k, j);
    }
  }

  /** Part `k` is the slice of the concatenation that starts after all the
      elements of parts `0..k-1`. */
  lemma {:induction false} FlattenPart<T>(ss: seq<seq<T>>, k: nat)
    requires k < |ss|
    ensures TotalLength(ss[..k]) + |ss[k]| <= |Flatten(ss)|
    ensures Flatten(ss)[TotalLength(ss[..k])..TotalLength(ss[..k]) + |ss[k]|] == ss[k]
  {
    var n := |ss| - 1;
    var init := ss[..n];
    FlattenLength(init);
    if k == n {
      assert ss[..k] == init;
    } else {
      assert init[..k] == ss[..k];
      FlattenPart(init, k);
    }
  }

  /** `FlattenPart` for every part at once. */
  lemma FlattenParts<T>(ss: seq<seq<T>>)
    ensures |Flatten(ss)| == TotalLength(ss)
    ensures forall k :: 0 <= k < |ss| ==>
      && TotalLength(ss[..k]) + |ss[k]| <= |Flatten(ss)|
      && Flatten(ss)[TotalLength(ss[..k])..TotalLength(ss[..k]) + |ss[k]|] == ss[k]
  {
    FlattenLength(ss);
    forall k | 0 <= k < |ss|
      ensures TotalLength(ss[..k]) + |ss[k]| <= |Flatten(ss)|
      ensures Flatten(ss)[TotalLength(ss[..k])..TotalLength(ss[..k]) + |ss[k]|] == ss[k]
    {
      FlattenPart(ss, k);
    }
  }

  /** Joining one-element lists gives back the list of their elements. */
  lemma {:induction false} FlattenSingletons<T>(ss: seq<seq<T>>, s: seq<T>)
    requires |ss| == |s|
    requires forall k :: 0 <= k < |s| ==> ss[k] == [s[k]]
    ensures Flatten(ss) == s
  {
    if |s| > 0 {
      var n := |s| - 1;
      FlattenSingletons(ss[..n], s[..n]);
      assert s == s[..n] + [s[n]];
    }
  }

  /** No value occurs twice. */
  ghost predicate NoDup<T>(s: seq<T>)
  {
    forall i, j :: 0 <= i < j < |s| ==> s[i] != s[j]
  }

  /** The position of the first occurrence of `x` in `s`. */
  function FirstIndex<T(==)>(s: seq<T>, x: T): (k: nat)
    requires x in s
    ensures k < |s| && s[k] == x
    ensures forall j :: 0 <= j < k ==> s[j] != x
  {
    if s[0] == x then 0 else 1 + FirstIndex(s[1..], x)
  }

  /** A value already present in a prefix is first found inside that prefix. */
  lemma {:induction false} FirstIndexInPrefix<T>(s: seq<T>, n: nat, y: T)
    requires n <= |s| && y in s[..n]
    ensures FirstIndex(s, y) == FirstIndex(s[..n], y)
  {
    assert s[..n][0] == s[0];
    if s[0] != y {
      assert s[..n][1..] == s[1..][..n - 1];
      FirstIndexInPrefix(s[1..], n - 1, y);
    }
  }

  /** The computation behind `Dedup`: keep each value of `s` when it is not
      yet among the values kept.  The algebraic lemmas below are proved on
      it, away from `Dedup`'s quantified guarantees. */
  function Distinct<T(==)>(s: seq<T>): seq<T>
  {
    if |s| == 0 then []
    else
      var d := Distinct(s[..|s| - 1]);
      if s[|s| - 1] in d then d else d + [s[|s| - 1]]
  }

  /** One step of `Distinct`: the last value is kept when it is new. */
  lemma DistinctSnoc<T>(s: seq<T>, x: T)
    ensures Distinct(s + [x]) == if x in Distinct(s) then Distinct(s) else Distinct(s) + [x]
  {
    assert (s + [x])[..|s|] == s;
  }

  /** `Distinct(s)` repeats nothing and holds exactly the values of `s`. */
  lemma {:induction false} DistinctKeepsValues<T>(s: seq<T>)
    ensures NoDup(Distinct(s))
    ensures forall x :: x in Distinct(s) <==> x in s
    ensures forall i :: 0 <= i < |Distinct(s)| ==> Distinct(s)[i] in s
    ensures forall i :: 0 <= i < |s| ==> s[i] in Distinct(s)
  {
    if |s| > 0 {
      var init := s[..|s| - 1];
      DistinctKeepsValues(init);
      assert s == init + [s[|s| - 1]];
    }
  }

  /** `Array.from(new Set(s))`: each value of `s` once, at the place where
      it first occurs (a `Set` iterates in insertion order). */
  function Dedup<T(==)>(s: seq<T>): (r: seq<T>)
    ensures NoDup(r)
    ensures forall i :: 0 <= i < |r| ==> r[i] in s
    ensures forall i :: 0 <= i < |s| ==> s[i] in r
  {
    DistinctKeepsValues(s);
    Distinct(s)
  }

  lemma {:induction false} DistinctFirstOccurrenceOrder<T>(s: seq<T>)
    ensures forall i, j :: 0 <= i < j < |Distinct(s)| ==>
      && Distinct(s)[i] in s && Distinct(s)[j] in s
      && FirstIndex(s, Distinct(s)[i]) < FirstIndex(s, Distinct(s)[j])
  {
    if |s| > 0 {
      var init := s[..|s| - 1];
      var x := s[|s| - 1];
      var d := Distinct(init);
      DistinctFirstOccurrenceOrder(init);
      DistinctKeepsValues(init);
      DistinctKeepsValues(s);
      assert s == init + [x];
      forall y | y in init
        ensures FirstIndex(s, y) == FirstIndex(init, y)
      {
        FirstIndexInPrefix(s, |init|, y);
      }
      var r := Distinct(s);
      assert r == if x in d then d else d + [x];
      if x !in d {
        assert FirstIndex(s, x) == |init|;
      }
      forall i, j | 0 <= i < j < |r|
        ensures r[i] in s && r[j] in s && FirstIndex(s, r[i]) < FirstIndex(s, r[j])
      {
        assert r[i] == d[i] && d[i] in init;
        if j < |d| {
          assert r[j] == d[j];
        }
      }
    } else {
      assert |Distinct(s)| == 0;
    }
  }

  /** The values of `Dedup(s)` appear in the order of their first
      occurrences in `s`. */
  lemma DedupFirstOccurrenceOrder<T>(s: seq<T>)
    ensures forall i, j :: 0 <= i < j < |Dedup(s)| ==> FirstIndex(s, Dedup(s)[i]) < FirstIndex(s, Dedup(s)[j])
  {
    DistinctFirstOccurrenceOrder(s);
  }

  lemma {:induction false} DistinctOfNoDup<T>(s: seq<T>)
    requires NoDup(s)
    ensures Distinct(s) == s
  {
    if |s| > 0 {
      var n := |s| - 1;
      assert NoDup(s[..n]);
      DistinctOfNoDup(s[..n]);
      assert s == s[..n] + [s[n]];
    }
  }

  lemma {:induction false} DistinctAppend<T>(a: seq<T>, b: seq<T>)
    ensures Distinct(Distinct(a) + b) == Distinct(a + b)
  {
    if |b| == 0 {
      assert Distinct(a) + b == Distinct(a);
      assert a + b == a;
      DistinctKeepsValues(a);
      DistinctOfNoDup(Distinct(a));
    } else {
      var n := |b| - 1;
      DistinctAppend(a, b[..n]);
      assert Distinct(a) + b == (Distinct(a) + b[..n]) + [b[n]];
      assert a + b == (a + b[..n]) + [b[n]];
      DistinctSnoc(Distinct(a) + b[..n], b[n]);
      DistinctSnoc(a + b[..n], b[n]);
    }
  }

  lemma {:induction false} DistinctAbsorbs<T>(a: seq<T>, b: seq<T>)
    requires forall y :: y in b ==> y in a
    ensures Distinct(a + b) == Distinct(a)
  {
    if |b| > 0 {
      var n := |b| - 1;
      DistinctAbsorbs(a, b[..n]);
      assert a + b == (a + b[..n]) + [b[n]];
      DistinctSnoc(a + b[..n], b[n]);
      assert b[n] in b;
      DistinctKeepsValues(a + b[..n]);
    } else {
      assert a + b == a;
    }
  }

  /** Deduplicating an accumulated prefix before appending more values does
      not change the final result: merging in several steps equals one
      merge of everything. */
  lemma DedupAppend<T>(a: seq<T>, b: seq<T>)
    ensures Dedup(Dedup(a) + b) == Dedup(a + b)
  {
    DistinctAppend(a, b);
  }

  /** Appending only values that are already present changes nothing. */
  lemma DedupAbsorbs<T>(a: seq<T>, b: seq<T>)
    requires forall y :: y in b ==> y in a
    ensures Dedup(a + b) == Dedup(a)
  {
    DistinctAbsorbs(a, b);
  }

  /** Joining `k >= 1` copies of the same list and deduplicating is the same
      as deduplicating the list once. */
  lemma {:induction false} DedupFlattenCopies<T>(ss: seq<seq<T>>, f: seq<T>)
    requires |ss| >= 1
    requires forall k :: 0 <= k < |ss| ==> ss[k] == f
    ensures Dedup(Flatten(ss)) == Dedup(f)
  {
    var n := |ss| - 1;
    var init := ss[..n];
    if n == 0 {
      assert Flatten(init) == [];
      assert Flatten(ss) == [] + f == f;
    } else {
      DedupFlattenCopies(init, f);
      forall y | y in f
        ensures y in Flatten(init)
      {
        var j :| 0 <= j < |f| && f[j] == y;
        FlattenIndex(init, 0, j);
      }
      DedupAbsorbs(Flatten(init), f);
    }
  }
}

=== FILE: combine.dfy ===
/** `combineJsons` (src/utils/image_utils.js): merge a list of template
    texts into one multi-page template. */
module Combine {
  import opened Wrappers
  import opened Template
  import opened Collections

  /** The ways the merge throws. */
  datatype CombineError =
    /** "Input must be a non-empty array of JSON objects" */
    | NotNonEmptyArray
    /** "Error parsing the first JSON string" */
    | FirstUnparsable
    /** "Error parsing JSON string at index i" */
    | UnparsableAt(index: nat)
    /** "Element at index i must be a valid JSON object" */
    | NotAnObject(index: nat)
    /** "Inconsistent <field> across JSON objects: <expected> vs <found>" */
    | Inconsistent(field: HeaderField, expected: Scalar, found: Scalar)
    /** The runtime TypeError of spreading a missing `fonts` or `pages` list */
    | NotIterable(list: ListField)
    /** The runtime TypeError of reading `width` off a `null` first element */
    | PropertyOfNull

  datatype ListField = Fonts | Pages

  /** The argument: something that is not an array, or an array of texts,
      each given by what `JSON.parse` makes of it. */
  datatype Input = NotAnArray | Elements(items: seq<Parsed>)

  /** The checks the loop body makes on a template `t` against the
      accumulated template `c`, in the order the source makes them. */
  function TemplateProblem(c: Template, t: Template): Option<CombineError>
  {
    if !SameAcrossParses(c.width, t.width) then Some(Inconsistent(Width, c.width, t.width))
    else if !SameAcrossParses(c.height, t.height) then Some(Inconsistent(Height, c.height, t.height))
    else if !SameAcrossParses(c.unit, t.unit) then Some(Inconsistent(Unit, c.unit, t.unit))
    else if !SameAcrossParses(c.dpi, t.dpi) then Some(Inconsistent(Dpi, c.dpi, t.dpi))
    else if c.fonts.None? || t.fonts.None? then Some(NotIterable(Fonts))
    else if c.pages.None? || t.pages.None? then Some(NotIterable(Pages))
    else None
  }

  /** What goes wrong, if anything, when the loop reaches element `i >= 1`
      holding `x`, given the first element `first`.  The header fields of
      the accumulated template never change, so they are `first`'s. */
  function ElementProblem(first: Parsed, x: Parsed, i: nat): Option<CombineError>
    requires !first.Unparsable?
  {
    match x
    case Unparsable => Some(UnparsableAt(i))
    case JsonNull => Some(NotAnObject(i))
    case JsonPrimitive => Some(NotAnObject(i))
    case JsonObject(t) =>
      if first.JsonNull? then Some(PropertyOfNull) else TemplateProblem(Properties(first), t)
  }

  /** The problem of the first element at or after index `k` that has one. */
  function FirstProblem(xs: seq<Parsed>, k: nat): Option<CombineError>
    requires 0 < |xs| && !xs[0].Unparsable? && 1 <= k <= |xs|
    decreases |xs| - k
  {
    if k == |xs| then None
    else if ElementProblem(xs[0], xs[k], k).Some? then ElementProblem(xs[0], xs[k], k)
    else FirstProblem(xs, k + 1)
  }

  function FontsOf(p: Parsed): seq<Font>
  {
    if p.JsonObject? && p.t.fonts.Some? then p.t.fonts.value else []
  }

  function PagesOf(p: Parsed): seq<Page>
  {
    if p.JsonObject? && p.t.pages.Some? then p.t.pages.value else []
  }

  function FontLists(xs: seq<Parsed>): seq<seq<Font>>
  {
    seq(|xs|, k requires 0 <= k < |xs| => FontsOf(xs[k]))
  }

  function PageLists(xs: seq<Parsed>): seq<seq<Page>>
  {
    seq(|xs|, k requires 0 <= k < |xs| => PagesOf(xs[k]))
  }

  /** The merged template in closed form: the first template's header, the
      fonts of all elements without repeats, the pages of all elements in
      order. */
  function Merged(xs: seq<Parsed>): Template
    requires 0 < |xs| && xs[0].JsonObject?
  {
    xs[0].t.(fonts := Some(Dedup(Flatten(FontLists(xs)))), pages := Some(Flatten(PageLists(xs))))
  }

  /** Reference definition of what `combineJsons` returns or throws. */
  function CombinedAsWritten(input: Input): Result<Parsed, CombineError>
  {
    if input.NotAnArray? || |input.items| == 0 then Failure(NotNonEmptyArray)
    else if input.items[0].Unparsable? then Failure(FirstUnparsable)
    else
      var xs := input.items;
      match FirstProblem(xs, 1)
      case Some(e) => Failure(e)
      case None =>
        if |xs| == 1 then Success(xs[0])
        else
          assert ElementProblem(xs[0], xs[1], 1).None?;
          Success(JsonObject(Merged(xs)))
  }

  /** Extending the merged prefix `xs[..i]` by one more element. */
  lemma MergedStep(xs: seq<Parsed>, i: nat)
    requires 1 <= i < |xs| && xs[0].JsonObject? && xs[i].JsonObject?
    requires xs[0].t.fonts.Some? && xs[i].t.fonts.Some? && xs[0].t.pages.Some? && xs[i].t.pages.Some?
    ensures
      var c := if i == 1 then xs[0].t else Merged(xs[..i]);
      c.fonts.Some? && c.pages.Some? &&
      Merged(xs[..i + 1]) == c.(fonts := Some(Dedup(c.fonts.value + xs[i].t.fonts.value)),
                                pages := Some(c.pages.value + xs[i].t.pages.value))
  {
    var p := xs[..i];
    ListsSnoc(xs, i);
    FlattenSnoc(FontLists(p), FontsOf(xs[i]));
    FlattenSnoc(PageLists(p), PagesOf(xs[i]));
    if i == 1 {
      ListsOfFirst(xs);
    } else {
      DedupAppend(Flatten(FontLists(p)), FontsOf(xs[i]));
    }
  }

  lemma ListsSnoc(xs: seq<Parsed>, i: nat)
    requires i < |xs|
    ensures FontLists(xs[..i + 1]) == FontLists(xs[..i]) + [FontsOf(xs[i])]
    ensures PageLists(xs[..i + 1]) == PageLists(xs[..i]) + [PagesOf(xs[i])]
  {
    assert xs[..i + 1] == xs[..i] + [xs[i]];
  }

  lemma ListsOfFirst(xs: seq<Parsed>)
    requires 0 < |xs|
    ensures Flatten(FontLists(xs[..1])) == FontsOf(xs[0])
    ensures Flatten(PageLists(xs[..1])) == PagesOf(xs[0])
  {
    assert FontLists(xs[..1]) == [] + [FontsOf(xs[0])];
    assert PageLists(xs[..1]) == [] + [PagesOf(xs[0])];
    FlattenSnoc([], FontsOf(xs[0]));
    FlattenSnoc([], PagesOf(xs[0]));
  }

  /** `combineJsons` as written: parse the first text, then fold every later
      element into it, checking it first. */
  method CombineJsons(input: Input) returns (r: Result<Parsed, CombineError>)
    ensures r == CombinedAsWritten(input)
  {
    if input.NotAnArray? || |input.items| == 0 {
      return Failure(NotNonEmptyArray);
    }
    var xs := input.items;
    if xs[0].Unparsable? {
      return Failure(FirstUnparsable);
    }
    var combined := xs[0];
    var i := 1;
    while i < |xs|
      invariant 1 <= i <= |xs|
      invariant FirstProblem(xs, 1) == FirstProblem(xs, i)
      invariant i == 1 ==> combined == xs[0]
      invariant i > 1 ==> xs[0].JsonObject? && combined == JsonObject(Merged(xs[..i]))
      invariant i > 1 ==> xs[0].t.fonts.Some? && xs[0].t.pages.Some?
      decreases |xs| - i
    {
      // The checks run against the accumulated template, as in the source.
      var problem: Option<CombineError>;
      match xs[i] {
        case Unparsable => problem := Some(UnparsableAt(i));
        case JsonNull => problem := Some(NotAnObject(i));
        case JsonPrimitive => problem := Some(NotAnObject(i));
        case JsonObject(t) =>
          if combined.JsonNull? {
            problem := Some(PropertyOfNull);
          } else {
            problem := TemplateProblem(Properties(combined), t);
          }
      }
      assert problem == ElementProblem(xs[0], xs[i], i);
      if problem.Some? {
        return Failure(problem.value);
      }
      var t := xs[i].t;
      var c := Properties(combined);
      MergedStep(xs, i);
      combined := JsonObject(c.(fonts := Some(Dedup(c.fonts.value + t.fonts.value)),
                                pages := Some(c.pages.value + t.pages.value)));
      i := i + 1;
    }
    if |xs| > 1 {
      assert xs[..|xs|] == xs;
    }
    return Success(combined);
  }

  /** The first header field, in the order width, height, unit, dpi, whose
      values differ between `c` and `t`. */
  function FirstMismatch(c: Template, t: Template, fields: seq<HeaderField>): Option<HeaderField>
  {
    if |fields| == 0 then None
    else if !SameAcrossParses(Header(c, fields[0]), Header(t, fields[0])) then Some(fields[0])
    else FirstMismatch(c, t, fields[1..])
  }

  /** An inconsistency error names the first mismatching header field with
      both values; only when the whole header agrees can a list be at fault. */
  lemma InconsistencyNamesFirstMismatch(c: Template, t: Template)
    ensures match FirstMismatch(c, t, HeaderOrder)
      case Some(f) => TemplateProblem(c, t) == Some(Inconsistent(f, Header(c, f), Header(t, f)))
      case None => TemplateProblem(c, t).None? || TemplateProblem(c, t).value.NotIterable?
  {
    var rest1, rest2, rest3 := [Height, Unit, Dpi], [Unit, Dpi], [Dpi];
    assert HeaderOrder[1..] == rest1 && rest1[1..] == rest2 && rest2[1..] == rest3 && rest3[1..] == [];
    if SameAcrossParses(c.width, t.width) {
      assert FirstMismatch(c, t, HeaderOrder) == FirstMismatch(c, t, rest1);
      if SameAcrossParses(c.height, t.height) {
        assert FirstMismatch(c, t, rest1) == FirstMismatch(c, t, rest2);
        if SameAcrossParses(c.unit, t.unit) {
          assert FirstMismatch(c, t, rest2) == FirstMismatch(c, t, rest3);
          assert FirstMismatch(c, t, rest3) ==
            if SameAcrossParses(c.dpi, t.dpi) then FirstMismatch(c, t, []) else Some(Dpi);
        }
      }
    }
  }

  /** `FirstProblem` finds the earliest element with a problem. */
  lemma {:induction false} FirstProblemIsEarliest(xs: seq<Parsed>, k: nat)
    requires 0 < |xs| && !xs[0].Unparsable? && 1 <= k <= |xs|
    ensures FirstProblem(xs, k).None? <==> forall j :: k <= j < |xs| ==> ElementProblem(xs[0], xs[j], j).None?
    ensures forall j ::
      (&& k <= j < |xs|
       && ElementProblem(xs[0], xs[j], j).Some?
       && forall m :: k <= m < j ==> ElementProblem(xs[0], xs[m], m).None?)
      ==> FirstProblem(xs, k) == ElementProblem(xs[0], xs[j], j)
    decreases |xs| - k
  {
    if k < |xs| {
      FirstProblemIsEarliest(xs, k + 1);
    }
  }

  /** The merge succeeds exactly when the input is a non-empty array whose
      first text parses and every later element passes its checks; then
      every later element is a template with both lists present. */
  lemma CombineSucceedsIff(input: Input)
    ensures CombinedAsWritten(input).Success? <==>
      && input.Elements? && 0 < |input.items| && !input.items[0].Unparsable?
      && forall k :: 1 <= k < |input.items| ==> ElementProblem(input.items[0], input.items[k], k).None?
    ensures CombinedAsWritten(input).Success? ==>
      forall k :: 1 <= k < |input.items| ==>
        input.items[k].JsonObject? && input.items[k].t.fonts.Some? && input.items[k].t.pages.Some?
  {
    if input.Elements? && 0 < |input.items| && !input.items[0].Unparsable? {
      FirstProblemIsEarliest(input.items, 1);
    }
  }

  /** Errors come out in the source's order: the array check, then the
      first text, then the problem of the earliest later element that has
      one. */
  lemma CombineReportsFirstProblem(input: Input)
    ensures input.NotAnArray? || |input.items| == 0 ==> CombinedAsWritten(input) == Failure(NotNonEmptyArray)
    ensures input.Elements? && 0 < |input.items| && input.items[0].Unparsable? ==>
      CombinedAsWritten(input) == Failure(FirstUnparsable)
    ensures input.Elements? && 0 < |input.items| && !input.items[0].Unparsable? ==>
      forall k ::
        (&& 1 <= k < |input.items|
         && ElementProblem(input.items[0], input.items[k], k).Some?
         && forall m :: 1 <= m < k ==> ElementProblem(input.items[0], input.items[m], m).None?)
        ==> CombinedAsWritten(input) == Failure(ElementProblem(input.items[0], input.items[k], k).value)
  {
    if input.Elements? && 0 < |input.items| && !input.items[0].Unparsable? {
      FirstProblemIsEarliest(input.items, 1);
    }
  }

  /** A one-element input comes back as it was parsed; a longer one comes
      back as a template carrying the first template's width, height, unit
      and dpi. */
  lemma CombineKeepsFirstHeader(input: Input)
    ensures CombinedAsWritten(input).Success? && |input.items| == 1 ==>
      CombinedAsWritten(input).value == input.items[0]
    ensures CombinedAsWritten(input).Success? && |input.items| >= 2 ==>
      && input.items[0].JsonObject?
      && CombinedAsWritten(input).value.JsonObject?
      && forall f :: Header(CombinedAsWritten(input).value.t, f) == Header(input.items[0].t, f)
  {
  }

  /** A successful merge of two or more elements is the closed form. */
  lemma MergedOnSuccess(input: Input)
    requires CombinedAsWritten(input).Success? && |input.items| >= 2
    ensures input.items[0].JsonObject?
    ensures CombinedAsWritten(input) == Success(JsonObject(Merged(input.items)))
  {
  }

  /** The merged pages are the concatenation of every input's pages, input
      by input (`Collections.FlattenParts` locates each input's pages in
      it). */
  lemma CombineConcatenatesPages(input: Input)
    requires CombinedAsWritten(input).Success? && |input.items| >= 2
    ensures CombinedAsWritten(input).value.JsonObject?
    ensures CombinedAsWritten(input).value.t.pages == Some(Flatten(PageLists(input.items)))
  {
    MergedOnSuccess(input);
  }

  /** With two or more inputs the merged fonts hold every input font exactly
      once, ordered by first occurrence across the inputs; with one input
      the fonts are untouched, repeats included. */
  lemma CombineMergesFonts(input: Input)
    ensures CombinedAsWritten(input).Success? && |input.items| == 1 ==>
      CombinedAsWritten(input).value == input.items[0]
    ensures CombinedAsWritten(input).Success? && |input.items| >= 2 ==>
      var xs := input.items;
      var all := Flatten(FontLists(xs));
      var r := CombinedAsWritten(input).value;
      && r.JsonObject? && r.t.fonts.Some?
      && NoDup(r.t.fonts.value)
      && (forall k, j :: 0 <= k < |xs| && 0 <= j < |FontsOf(xs[k])| ==> FontsOf(xs[k])[j] in r.t.fonts.value)
      && (forall i :: 0 <= i < |r.t.fonts.value| ==> r.t.fonts.value[i] in all)
      && (forall i, j :: 0 <= i < j < |r.t.fonts.value| ==>
            FirstIndex(all, r.t.fonts.value[i]) < FirstIndex(all, r.t.fonts.value[j]))
  {
    if CombinedAsWritten(input).Success? && |input.items| >= 2 {
      var xs := input.items;
      MergedOnSuccess(input);
      var all := Flatten(FontLists(xs));
      DedupFirstOccurrenceOrder(all);
      forall k, j | 0 <= k < |xs| && 0 <= j < |FontsOf(xs[k])|
        ensures FontsOf(xs[k])[j] in Dedup(all)
      {
        FlattenIndex(FontLists(xs), k, j);
      }
    }
  }

  /** `combineJsons` with the first element checked like the others: a
      first text that parses to `null` or a primitive is rejected as not an
      object, so a successful merge always yields a template. */
  function Combined(input: Input): (r: Result<Parsed, CombineError>)
    ensures r.Success? ==> r.value.JsonObject?
    ensures input.Elements? && 0 < |input.items| && (input.items[0].JsonNull? || input.items[0].JsonPrimitive?) ==>
      r == Failure(NotAnObject(0))
    ensures !(input.Elements? && 0 < |input.items| && (input.items[0].JsonNull? || input.items[0].JsonPrimitive?)) ==>
      r == CombinedAsWritten(input)
  {
    if input.Elements? && 0 < |input.items| && (input.items[0].JsonNull? || input.items[0].JsonPrimitive?) then
      Failure(NotAnObject(0))
    else
      CombinedAsWritten(input)
  }

  /** As written, the first element is never checked to be an object: a
      lone primitive is returned as the "combined template", and a `null`
      first element fails with a runtime TypeError instead of the designed
      message. */
  lemma FirstElementNotObjectChecked(t: Template)
    ensures CombinedAsWritten(Elements([JsonPrimitive])) == Success(JsonPrimitive)
    ensures CombinedAsWritten(Elements([JsonNull])) == Success(JsonNull)
    ensures CombinedAsWritten(Elements([JsonNull, JsonObject(t)])) == Failure(PropertyOfNull)
    ensures Combined(Elements([JsonPrimitive])) == Failure(NotAnObject(0))
    ensures Combined(Elements([JsonNull, JsonObject(t)])) == Failure(NotAnObject(0))
  {
    assert FirstProblem([JsonNull, JsonObject(t)], 1) == Some(PropertyOfNull);
  }
}

=== FILE: decimal.dfy ===
/** Decimal rendering of natural numbers, as JavaScript's template literals
    print a non-negative integer (`${i}`): no sign, no leading zeros. */
module Decimal {

  /** The character of a single decimal digit. */
  function DigitChar(d: nat): (c: char)
    requires d < 10
    ensures '0' <= c <= '9'
  {
    ('0' as int + d) as char
  }

  /** The shortest decimal numeral of `n`. */
  function NatToString(n: nat): (s: string)
    ensures 1 <= |s|
    ensures forall i :: 0 <= i < |s| ==> '0' <= s[i] <= '9'
    ensures n < 10 <==> |s| == 1
    decreases n
  {
    if n < 10 then [DigitChar(n)] else NatToString(n / 10) + [DigitChar(n % 10)]
  }

  /** Different numbers print differently, so keys and page names built
      from distinct indices never collide. */
  lemma {:induction false} NatToStringInjective(a: nat, b: nat)
    requires NatToString(a) == NatToString(b)
    ensures a == b
    decreases a
  {
    if a < 10 || b < 10 {
      assert a < 10 && b < 10;
      assert NatToString(a)[0] == DigitChar(a);
    } else {
      var sa, sb := NatToString(a / 10), NatToString(b / 10);
      assert NatToString(a) == sa + [DigitChar(a % 10)];
      assert NatToString(b) == sb + [DigitChar(b % 10)];
      assert sa == NatToString(a)[..|NatToString(a)| - 1];
      assert sb == NatToString(b)[..|NatToString(b)| - 1];
      NatToStringInjective(a / 10, b / 10);
      assert DigitChar(a % 10) == NatToString(a)[|NatToString(a)| - 1];
    }
  }
}

=== FILE: split.dfy ===
/** `jsonToBlobs` (src/utils/image_utils.js): split a multi-page template
    into single-page templates sharing its header, each rendered and keyed
    `${baseKey}_${index}`. */
module Split {
  import opened Wrappers
  import opened Template
  import opened Collections
  import Decimal
  import Combine

  /** What `jsonToBlob` resolves to: image bytes, or the empty string it
      returns after swallowing a rendering error.  It never throws. */
  datatype Blob = EmptyString | Image(bytes: seq<bv8>)

  /** One entry of the result: the key, the rendered PNG and the
      single-page template (its `JSON.stringify` text, seen parsed). */
  datatype Artifact = Artifact(idx: string, pngBlob: Blob, json: Parsed)

  /** `${baseKey}_${index}` */
  function PageKey(baseKey: string, index: nat): string
  {
    baseKey + "_" + Decimal.NatToString(index)
  }

  /** The template of one page: the source's header and fonts, one page. */
  function SinglePage(t: Template, page: Page): Template
  {
    t.(pages := Some([page]))
  }

  /** The loop of `jsonToBlobs` over `pages`, one entry pushed per page.  The
      `try`/`catch` around each entry never fires: the renderer swallows its
      own errors and stringifying a parsed template cannot fail. */
  function PageArtifacts(t: Template, pages: seq<Page>, baseKey: string, render: Template -> Blob): (r: seq<Artifact>)
    ensures |r| == |pages|
    ensures forall i :: 0 <= i < |pages| ==>
      && r[i].idx == PageKey(baseKey, i)
      && r[i].json == JsonObject(SinglePage(t, pages[i]))
      && r[i].pngBlob == render(SinglePage(t, pages[i]))
  {
    if |pages| == 0 then []
    else
      var n := |pages| - 1;
      var one := SinglePage(t, pages[n]);
      PageArtifacts(t, pages[..n], baseKey, render) + [Artifact(PageKey(baseKey, n), render(one), JsonObject(one))]
  }

  /** `jsonToBlobs(multipageTemplate, baseKey)`.  `None` is the TypeError
      thrown when the argument is not an object or has no `pages` list. */
  function JsonToBlobs(template: Parsed, baseKey: string, render: Template -> Blob): (r: Option<seq<Artifact>>)
    ensures r.Some? <==> template.JsonObject? && template.t.pages.Some?
    ensures r.Some? ==>
      && |r.value| == |template.t.pages.value|
      && forall i :: 0 <= i < |r.value| ==>
        && r.value[i].idx == PageKey(baseKey, i)
        && r.value[i].json.JsonObject?
        && r.value[i].json.t.pages == Some([template.t.pages.value[i]])
        && r.value[i].json.t == template.t.(pages := Some([template.t.pages.value[i]]))
        && r.value[i].pngBlob == render(r.value[i].json.t)
  {
    match template
    case JsonObject(t) =>
      if t.pages.Some? then Some(PageArtifacts(t, t.pages.value, baseKey, render)) else None
    case _ => None
  }

  /** Distinct pages get distinct keys. */
  lemma PageKeysDistinct(baseKey: string, i: nat, j: nat)
    requires PageKey(baseKey, i) == PageKey(baseKey, j)
    ensures i == j
  {
    var p := baseKey + "_";
    assert PageKey(baseKey, i)[|p|..] == Decimal.NatToString(i);
    assert PageKey(baseKey, j)[|p|..] == Decimal.NatToString(j);
    Decimal.NatToStringInjective(i, j);
  }

  /** The parsed JSON texts of the entries, in order. */
  function JsonsOf(arts: seq<Artifact>): (r: seq<Parsed>)
    ensures |r| == |arts| && forall i :: 0 <= i < |arts| ==> r[i] == arts[i].json
  {
    seq(|arts|, i requires 0 <= i < |arts| => arts[i].json)
  }

  /** Header values that survive a serialise/parse round trip under `===`,
      and a fonts list to spread. */
  predicate Restorable(t: Template)
  {
    && !t.width.Composite? && !t.height.Composite? && !t.unit.Composite? && !t.dpi.Composite?
    && t.fonts.Some?
  }

  /** The texts a split produces, one single-page template per page. */
  ghost predicate SinglePagesOf(t: Template, xs: seq<Parsed>)
    requires t.pages.Some?
  {
    |xs| == |t.pages.value| && forall k :: 0 <= k < |xs| ==> xs[k] == JsonObject(SinglePage(t, t.pages.value[k]))
  }

  lemma SplitGivesSinglePages(t: Template, baseKey: string, render: Template -> Blob)
    requires t.pages.Some?
    ensures SinglePagesOf(t, JsonsOf(JsonToBlobs(JsonObject(t), baseKey, render).value))
  {
  }

  lemma RestorableMerges(t: Template, xs: seq<Parsed>)
    requires t.pages.Some? && |t.pages.value| >= 2 && SinglePagesOf(t, xs) && Restorable(t)
    ensures Combine.Combined(Combine.Elements(xs)) == Success(JsonObject(t.(fonts := Some(Dedup(t.fonts.value)))))
  {
    var ps := t.pages.value;
    var input := Combine.Elements(xs);
    forall k | 1 <= k < |xs|
      ensures Combine.ElementProblem(xs[0], xs[k], k).None?
    {
      assert xs[k] == JsonObject(SinglePage(t, ps[k]));
    }
    Combine.CombineSucceedsIff(input);
    Combine.MergedOnSuccess(input);
    var fonts := Combine.FontLists(xs);
    var pages := Combine.PageLists(xs);
    assert forall k :: 0 <= k < |fonts| ==> fonts[k] == t.fonts.value;
    DedupFlattenCopies(fonts, t.fonts.value);
    FlattenSingletons(pages, ps);
  }

  lemma UnrestorableFails(t: Template, xs: seq<Parsed>)
    requires t.pages.Some? && |t.pages.value| >= 2 && SinglePagesOf(t, xs) && !Restorable(t)
    ensures Combine.Combined(Combine.Elements(xs)).Failure?
  {
    assert Combine.ElementProblem(xs[0], xs[1], 1).Some?;
    Combine.CombineSucceedsIff(Combine.Elements(xs));
  }

  /** Merging the single-page templates of a split gives back the original
      template: the same header and pages, with the fonts deduplicated once
      there are two or more pages.  With two or more pages this works
      exactly when the header holds no object values and fonts are present.
      The split's texts are all objects, so the merge as written and the
      corrected merge agree on them. */
  lemma SplitThenCombine(t: Template, baseKey: string, render: Template -> Blob)
    requires t.pages.Some?
    ensures
      var back := Combine.Combined(Combine.Elements(JsonsOf(JsonToBlobs(JsonObject(t), baseKey, render).value)));
      && back == Combine.CombinedAsWritten(Combine.Elements(JsonsOf(JsonToBlobs(JsonObject(t), baseKey, render).value)))
      && (|t.pages.value| == 0 ==> back == Failure(Combine.NotNonEmptyArray))
      && (|t.pages.value| == 1 ==> back == Success(JsonObject(t)))
      && (|t.pages.value| >= 2 ==> (back.Success? <==> Restorable(t)))
      && (|t.pages.value| >= 2 && Restorable(t) ==>
            back == Success(JsonObject(t.(fonts := Some(Dedup(t.fonts.value))))))
  {
    var ps := t.pages.value;
    var xs := JsonsOf(JsonToBlobs(JsonObject(t), baseKey, render).value);
    SplitGivesSinglePages(t, baseKey, render);
    if |ps| == 1 {
      assert ps == [ps[0]];
      assert xs == [JsonObject(t)];
      assert Combine.FirstProblem(xs, 1) == None;
    } else if |ps| >= 2 {
      if Restorable(t) {
        RestorableMerges(t, xs);
      } else {
        UnrestorableFails(t, xs);
      }
    }
  }
}

=== FILE: storage.dfy ===
/** The object-storage key shape of `putObjectToS3`
    (src/utils/aws_services.js): the object is stored under
    `key + "." + extension`.  The upload itself is an external call whose
    failure the function turns into `false`. */
module Storage {

  function ObjectKey(key: string, extension: string): string
  {
    key + "." + extension
  }

  /** The dot before a dot-free extension is the last dot of the key. */
  lemma LastDot(key: string, extension: string)
    requires '.' !in extension
    ensures ObjectKey(key, extension)[|key|] == '.'
    ensures forall i :: |key| < i < |ObjectKey(key, extension)| ==> ObjectKey(key, extension)[i] != '.'
  {
    var s := ObjectKey(key, extension);
    forall i | |key| < i < |s|
      ensures s[i] != '.'
    {
      assert s[i] == extension[i - |key| - 1];
    }
  }

  /** With dot-free extensions, a stored key determines both the key it was
      made from and the extension: the last dot separates them. */
  lemma ObjectKeyInjective(k1: string, e1: string, k2: string, e2: string)
    requires '.' !in e1 && '.' !in e2
    requires ObjectKey(k1, e1) == ObjectKey(k2, e2)
    ensures k1 == k2 && e1 == e2
  {
    var s := ObjectKey(k1, e1);
    LastDot(k1, e1);
    LastDot(k2, e2);
    assert |k1| == |k2|;
    assert k1 == s[..|k1|] == k2;
    assert e1 == s[|k1| + 1..] == e2;
  }
}

=== FILE: template.dfy ===
/** The multi-page design template exchanged between the rendering service
    and the handlers: a record of `width`, `height`, `unit`, `dpi`, `fonts`
    and `pages`, as it looks after `JSON.parse`. */
module Template {
  import opened Wrappers

  /** The value found under a header key of a parsed object.  `Undefined`
      is a missing key; `Composite` is an object or an array.  Every
      `JSON.parse` builds fresh objects, and `===` compares objects by
      identity, so a `Composite` never equals a value from another parse. */
  datatype Scalar =
    | Undefined
    | Null
    | Boolean(b: bool)
    | Number(n: real)
    | Text(s: string)
    | Composite

  /** `a === b` where `a` and `b` come from two different `JSON.parse` calls. */
  predicate SameAcrossParses(a: Scalar, b: Scalar)
  {
    a == b && !a.Composite?
  }

  /** A font entry, taken as a primitive value so that `Set` merges equal
      entries. */
  type Font = string

  /** One design page; the model only copies and concatenates pages. */
  datatype Page = Page(content: string)

  /** The template record.  `fonts` and `pages` are `None` when the key is
      missing or its value is not an array. */
  datatype Template = Template(
    width: Scalar,
    height: Scalar,
    unit: Scalar,
    dpi: Scalar,
    fonts: Option<seq<Font>>,
    pages: Option<seq<Page>>)

  /** The outcome of `JSON.parse` on one text: a syntax error, `null`, a
      number/string/boolean, or an object (arrays included: they read as an
      object with every template key missing). */
  datatype Parsed =
    | Unparsable
    | JsonNull
    | JsonPrimitive
    | JsonObject(t: Template)

  /** The header fields compared across templates. */
  datatype HeaderField = Width | Height | Unit | Dpi

  /** The order in which merging compares the header fields. */
  const HeaderOrder: seq<HeaderField> := [Width, Height, Unit, Dpi]

  function Header(t: Template, f: HeaderField): Scalar
  {
    match f
    case Width => t.width
    case Height => t.height
    case Unit => t.unit
    case Dpi => t.dpi
  }

  /** What property reads see on a parsed value that is not `null`: the
      object's own template, or nothing at all for a primitive. */
  function Properties(p: Parsed): (t: Template)
    requires p.JsonPrimitive? || p.JsonObject?
    ensures p.JsonPrimitive? ==> t.fonts.None? && t.pages.None?
  {
    match p
    case JsonObject(t) => t
    case JsonPrimitive => Template(Undefined, Undefined, Undefined, Undefined, None, None)
  }
}

=== FILE: wrappers.dfy ===
/** Optional values and success/failure results, used where the JavaScript
    code returns `undefined` or throws. */
module Wrappers {

  /** A value that may be absent. */
  datatype Option<+T> = None | Some(value: T)

  /** The outcome of an operation that either produces a value or fails
      with an error (a thrown exception in the source). */
  datatype Result<+R, +E> = Success(value: R) | Failure(error: E)
}
